=== FILE: README.md ===
# PROLABAFRIK dossier: interaction logic in Dafny

This is a model of the logic behind the PROLABAFRIK presentation site. The site is a Next.js "book" of pages laid side by side in one horizontal scroller. Most of the site is static copy. The modelled part is the behaviour behind it:

- **Email validators** (`lib/validators.ts`):
  - `isValidEmail`, the pattern `^[^\s@]+@[^\s@]+\.[^\s@]+$`;
  - `isBusinessEmail`, the free-mail filter on the lower-cased text after the first `@`.
- **Download form** (`PageDownload.tsx`):
  - three fields, with the `emailOk` and `canSubmit` guards;
  - the asynchronous submit handler: idle, loading, then success or error;
  - the button label, the button glyph, the field hint and the notice.
  - `emailOk` inlines the same pattern as `isValidEmail` and applies it to the trimmed field. The model reuses the one definition.
- **Method page** (`PageMethod.tsx`):
  - four steps, chosen by PREV/NEXT, by a rail node or by a mobile selector;
  - the desktop panel index, `Math.round(scrollLeft / clientWidth)` clamped to [0, 3];
  - the pager and its `PAGE 0n` counter.
- **"Why" page** (`PageWhy.tsx`):
  - the wheel-to-horizontal remap;
  - an index that is not clamped, over a divisor of `clientWidth || 1`;
  - the media-query attach/detach cycle, which resets progress and index;
  - the drag bounds of the timeline;
  - the `0i / 04` label.
- **Home scroller** (`app/page.tsx`): the wheel remap, and the debounced snap to the nearest multiple of the scroller's width.
- **References page** (`PageReferences.tsx`):
  - three tabs over three fixed lists;
  - the detail modal, opened by a card and closed by the button or a backdrop press;
  - the zero-padded card numbers.

The shared modules model the JavaScript built-ins these pages rely on:

- `JsNumber`:
  - `Math.round` of a quotient, with the infinities and NaN of a division by zero;
  - `Math.max`, `Math.min` and their clamp;
  - multiplication.
- `JsString`:
  - `trim` over the ECMAScript whitespace set;
  - ASCII `toLowerCase`;
  - `split`;
  - `String(n)`;
  - `padStart(2, "0")`.
- `ScrollMetrics`: the scroller's geometry, the reading progress and the "vertical wheel turn" test.

Each interactive page is a state and pure functions over its events. The download form, the "why" page, the home scroller and the references page each have a `Step` function, and `Run` folds a sequence of events through it. The method page has `RailStep` and `RailRun` for the rail, and `OnScroll` and `Mount` for the desktop panels. The properties are invariants of `Run`, round trips, and agreement with independent definitions. Examples:

- the email pattern, stated with quantifiers over positions;
- `Math.round`, stated as `floor(x + 0.5)` over the reals.

Pixels are integers throughout. The model assumes the browser's `scrollTo` treats a non-finite `left` as 0, as the CSSOM View Module specifies for scroll coordinates. This decides where the home scroller's snap goes at zero width (`HomePage.ScrollLeftFor`).

## Model

| member | source | states |
|---|---|---|
| JsNumber.RoundDiv | app/page.tsx:34 | the integer nearest to x / w, ties upward: 2rw − w ≤ 2x < 2rw + w |
| JsNumber.RoundDivIsMathRound | app/page.tsx:34 | the integer rounding agrees with `Math.round` defined as floor(x/w + 0.5) over the reals |
| JsNumber.RoundDivUnique | components/book/pages/PageWhy.tsx:112 | any k satisfying the nearest-integer bounds is the rounded quotient |
| JsNumber.RoundDivOfMultiple | components/book/pages/PageMethod.tsx:236 | rounding k·w / w gives back k, so a position on the k-th multiple of the width reads as panel k |
| JsNumber.RoundDivAtMost | components/book/pages/PageMethod.tsx:223 | a position below the upper edge of page k's rounding interval (2x < 2kw + w) rounds to at most k |
| JsNumber.RoundDivAtLeast | components/book/pages/PageMethod.tsx:223 | a position at or above the lower edge of page k's rounding interval (2kw − w ≤ 2x) rounds to at least k |
| JsNumber.RoundDivMonotone | components/book/pages/PageMethod.tsx:223 | a larger scroll position never gives a smaller rounded index |
| JsNumber.RoundQuotient | components/book/pages/PageMethod.tsx:223 | `Math.round(x / w)`: NaN exactly for 0/0, +Infinity for positive x over 0, −Infinity for negative x over 0, the nearest integer otherwise |
| JsNumber.Max | components/book/pages/PageMethod.tsx:224 | `Math.max`: NaN if either argument is NaN, otherwise the larger argument |
| JsNumber.Min | components/book/pages/PageMethod.tsx:224 | `Math.min`: NaN if either argument is NaN, otherwise the smaller argument |
| JsNumber.Clamp | components/book/pages/PageMethod.tsx:224 | `Math.min(hi, Math.max(lo, e))`: NaN stays NaN; everything else lands in [lo, hi]; values in range are unchanged; a finite value above hi, or +Infinity, gives hi; a finite value below lo, or −Infinity, gives lo |
| JsNumber.Mul | app/page.tsx:35 | multiplying a finite value multiplies; an infinity times 0 and NaN times anything give NaN; an infinity times a non-zero k is the infinity whose sign is the product of the signs |
| JsString.LeadingWhitespace | components/book/pages/PageDownload.tsx:10 | the length of the longest whitespace prefix: every character before it is whitespace, and the one at it (if any) is not |
| JsString.TrailingWhitespace | components/book/pages/PageDownload.tsx:10 | where the longest whitespace suffix starts: every character from it on is whitespace, and the one before it (if any) is not |
| JsString.TrimStart | components/book/pages/PageDownload.tsx:10 | the result is a suffix; everything cut off is whitespace; it does not start with whitespace |
| JsString.TrimEnd | components/book/pages/PageDownload.tsx:10 | the result is a prefix; everything cut off is whitespace; it does not end with whitespace |
| JsString.TrimIsInnerSlice | components/book/pages/PageDownload.tsx:10-11 | `trim()` is a slice of the input with only whitespace around it, and no whitespace at either of its ends |
| JsString.TrimEmptyIffAllWhitespace | components/book/pages/PageDownload.tsx:11 | a trimmed string is empty exactly when the input is all whitespace |
| JsString.TrimAround | components/book/pages/PageDownload.tsx:10 | trimming whitespace padding off a string without whitespace at its ends gives back that string |
| JsString.LowerChar | lib/validators.ts:8 | upper-case ASCII letters map to their lower-case letters; every other character is unchanged |
| JsString.Lower | lib/validators.ts:8 | `toLowerCase` keeps the length and lowers each character |
| JsString.LowerIdempotent | lib/validators.ts:8 | lowering twice equals lowering once |
| JsString.Split | lib/validators.ts:8 | `split(c)`: at least one piece; no piece contains c; one piece exactly when c does not occur |
| JsString.JoinSplit | lib/validators.ts:8 | joining the pieces of `split(c)` with c gives back the input |
| JsString.SplitAtSeparator | lib/validators.ts:8 | splitting d + c + t, with c not in d, gives d followed by the pieces of t |
| JsString.Decimal | components/book/pages/PageMethod.tsx:313 | `String(k)`: all digits, no leading zero, one digit exactly when k < 10 |
| JsString.DecimalRoundTrip | components/book/pages/PageMethod.tsx:313 | reading `String(k)` back as a decimal number gives k |
| JsString.PadZeros | components/book/pages/PageMethod.tsx:313 | `padStart(n, "0")`: the length is max(len, n); the input is a suffix; the added prefix is zeros |
| JsString.Pad2ReadsAs | components/book/pages/PageWhy.tsx:222 | `String(k).padStart(2, "0")` is all digits and reads back as k |
| JsString.Pad2OneDigit | components/book/pages/PageReferences.tsx:395 | a one-digit number is padded to "0" followed by its digit |
| JsString.Pad2Meaning | components/book/pages/PageWhy.tsx:222 | `String(k).padStart(2, "0")` has two characters exactly when k < 100, is all digits, and reads back as k |
| ScrollMetrics.Progress | components/book/pages/PageWhy.tsx:107-108 | the progress is 0 when nothing overflows; otherwise progress × overflow = scrollLeft, which lies in [0, 1] when the position is inside the scroll range |
| ScrollMetrics.ProgressMonotone | components/book/pages/PageMethod.tsx:219-220 | scrolling further never decreases the progress |
| Validators.IsValidEmailMatchesPattern | lib/validators.ts:2 | the split-based test accepts exactly the strings that match the pattern: a non-empty plain run, `@`, a non-empty plain run, `.` and a non-empty plain run, where plain means neither whitespace nor `@` |
| Validators.IsValidEmailAroundAt | lib/validators.ts:2 | an address with one `@` is valid exactly when the local part is non-empty and plain and the domain is plain with a dot that has characters on both sides |
| Validators.ValidEmailHasOneAt | lib/validators.ts:2 | a valid address has exactly one `@` |
| Validators.PatternCharacters | lib/validators.ts:2 | in a string that matches the pattern, no character is whitespace and the only `@` is the separator |
| Validators.WhitespaceRejected | lib/validators.ts:2 | any whitespace character anywhere makes the address invalid |
| Validators.NoAtRejected | lib/validators.ts:2 | an address without `@` is invalid |
| Validators.TwoAtsRejected | lib/validators.ts:2 | an address with two `@` is invalid |
| Validators.DomainWithoutInnerDotRejected | lib/validators.ts:2 | a domain whose only dots are at its ends, or that has no dot, is invalid |
| Validators.ExampleAccepted | lib/validators.ts:2 | `jane@acme.io` is valid |
| Validators.DomainSegment | lib/validators.ts:8 | `email.split("@")[1]`: absent exactly when there is no `@`; when present, it contains no `@` |
| Validators.DomainSegmentBetweenAts | lib/validators.ts:8 | the segment is the text between the first `@` and the next `@` or the end |
| Validators.BusinessEmailBySegment | lib/validators.ts:5-9 | an address is a business address exactly when the segment after its first `@` is non-empty and its lower-case form is not one of the six free-mail domains |
| Validators.BusinessEmailNeedsAt | lib/validators.ts:8-9 | without `@` there is no domain, so the address is not a business address |
| Validators.BusinessEmailIgnoresCase | lib/validators.ts:8 | two domains that lower-case alike give the same verdict |
| Validators.FreeMailRejectedInAnyCase | lib/validators.ts:7-9 | `x@gmail.com` and `x@GMAIL.COM` are both rejected |
| Validators.BusinessWithoutValid | lib/validators.ts:5-9 | the filter does not check the pattern: `x@acme` is a business address but not a valid one |
| PageDownload.EmailOkIgnoresPadding | components/book/pages/PageDownload.tsx:10 | a valid address with whitespace around it passes `emailOk` |
| PageDownload.EmailOkRejectsInnerWhitespace | components/book/pages/PageDownload.tsx:10 | whitespace left inside the trimmed address fails `emailOk` |
| PageDownload.FilledMeansVisibleCharacter | components/book/pages/PageDownload.tsx:11 | a name or company counts as filled exactly when it has a non-whitespace character |
| PageDownload.Step | components/book/pages/PageDownload.tsx:13-24 | a submit that fails `canSubmit` changes nothing; one that passes enters loading with a submission in flight and keeps the fields |
| PageDownload.StepKeepsLoadingIffInFlight | components/book/pages/PageDownload.tsx:13-24 | every event keeps "loading exactly while a submission is in flight" |
| PageDownload.RunKeepsLoadingIffInFlight | components/book/pages/PageDownload.tsx:7-24 | from the initial state (or any state with the invariant), every sequence of events keeps "loading exactly while a submission is in flight" |
| PageDownload.ReachableLoadingIffInFlight | components/book/pages/PageDownload.tsx:7-8 | the first render (idle, nothing in flight) meets the invariant, so every state reached from it by any events is loading exactly while a submission is in flight |
| PageDownload.SubmitThenComplete | components/book/pages/PageDownload.tsx:15-23 | a valid submit followed by completion ends in success, or in error if the awaited work threw, with the fields untouched |
| PageDownload.SubmitWhileLoading | components/book/pages/PageDownload.tsx:11 | while loading, submitting again is a no-op |
| PageDownload.ErrorOnlyFromRejection | components/book/pages/PageDownload.tsx:21-23 | the status becomes error only when the awaited work throws during a submission |
| PageDownload.SuccessNeedsValidSubmit | components/book/pages/PageDownload.tsx:11-20 | whenever a run reaches success, some earlier submit in that run passed `canSubmit` |
| PageDownload.EditsTouchOneField | components/book/pages/PageDownload.tsx:131-142 | each field's change handler replaces that field and keeps the other two and the status |
| PageDownload.ButtonLabel | components/book/pages/PageDownload.tsx:164 | "ENVOI..." exactly while loading; "ENVOYÉ" exactly on success; "RECEVOIR LE DOSSIER" exactly when idle or after an error |
| PageDownload.ButtonGlyph | components/book/pages/PageDownload.tsx:165 | an ellipsis exactly while loading, an arrow otherwise |
| PageDownload.EmailFieldHint | components/book/pages/PageDownload.tsx:143-149 | no hint exactly for an empty field; the "valid" border exactly for a non-empty field passing `emailOk` |
| PageDownload.NoticeFor | components/book/pages/PageDownload.tsx:169-187 | the confirmation exactly on success; the retry notice exactly on error; nothing when idle or loading |
| PageDownload.NoticeMeansIdleButton | components/book/pages/PageDownload.tsx:164-187 | in any reachable state that shows a notice, nothing is in flight, and the button shows its arrow and a label other than the sending one |
| PageMethod.StepNumbersArePadded | components/book/pages/PageMethod.tsx:16-40 | step i is numbered `String(i + 1).padStart(2, "0")` |
| PageMethod.Prev | components/book/pages/PageMethod.tsx:441-442 | PREV stays in range, and leaves the step unchanged exactly when it is disabled, that is on the first step |
| PageMethod.Next | components/book/pages/PageMethod.tsx:449-450 | NEXT stays in range, and leaves the step unchanged exactly when it is disabled, that is on the last step |
| PageMethod.PrevNextInverse | components/book/pages/PageMethod.tsx:441-450 | an enabled button moves by exactly one step, and the other button undoes it |
| PageMethod.RailStep | components/book/pages/PageMethod.tsx:441-482 | node i selects step i; PREV gives `Math.max(0, active − 1)` and NEXT `Math.min(3, active + 1)`, a disabled button leaving the step as it is; any click keeps a valid step index |
| PageMethod.RailRunInRange | components/book/pages/PageMethod.tsx:192-203 | any sequence of rail clicks keeps the step a valid index, so `steps[active]` always exists |
| PageMethod.NodeSidesAlternate | components/book/pages/PageMethod.tsx:482 | the first node is on top, and neighbouring nodes are on opposite sides |
| PageMethod.MobileSelect | components/book/pages/PageMethod.tsx:113 | tapping selector i shows step i |
| PageMethod.Detail | components/book/pages/PageMethod.tsx:427-431 | the detail shown for the active step carries the active step's padded number |
| PageMethod.PanelIndex | components/book/pages/PageMethod.tsx:223-224 | `clamp(round(x / w), 0, 3)`: at a positive width the index is finite; a position before half a panel gives 0; from two and a half panels on it gives 3; in between it is the panel whose rounding interval 2iw − w ≤ 2x < 2iw + w holds the position. A finite index lies in [0, 3]. At zero width: NaN exactly at position 0, the last panel for a positive position and the first for a negative one |
| PageMethod.OnScroll | components/book/pages/PageMethod.tsx:218-225 | the handler records the reading progress and the clamped panel index of the current position; the progress lies in [0, 1] inside the scroll range, and the panel index is a valid panel when finite |
| PageMethod.Mount | components/book/pages/PageMethod.tsx:211-231 | off desktop the initial view is kept; on desktop the handler runs once |
| PageMethod.GoToLandsOnPanel | components/book/pages/PageMethod.tsx:233-237 | scrolling to pager dot i's target makes the handler report panel i, for any positive width |
| PageMethod.GoToWithZeroWidth | components/book/pages/PageMethod.tsx:223-236 | at zero width every pager target is 0, and the panel index is NaN |
| PageMethod.PageLabel | components/book/pages/PageMethod.tsx:313 | the counter starts with `PAGE ` |
| PageMethod.PageLabelDigits | components/book/pages/PageMethod.tsx:313 | for the four panels the counter is seven characters, and its digits read back the panel number |
| PageWhy.WheelScroll | components/book/pages/PageWhy.tsx:99-104 | the handler moves the scroller exactly when the turn is vertically dominant, and then by deltaY |
| PageWhy.DivisorWidth | components/book/pages/PageWhy.tsx:111 | `clientWidth \|\| 1` is never zero, and is the width itself when that is positive |
| PageWhy.IndexAt | components/book/pages/PageWhy.tsx:111-113 | the index is k for the multiple k·w of the width nearest the scroll position |
| PageWhy.IndexNotClamped | components/book/pages/PageWhy.tsx:112-113 | past the last page the index is 4, and before the first it is −1 |
| PageWhy.IndexInRangeWithinScroll | components/book/pages/PageWhy.tsx:111-113 | inside the scroll range of four full-width pages, the index is a valid page and equals the method page's clamped index |
| PageWhy.GoToReportsPage | components/book/pages/PageWhy.tsx:148-152 | after `goTo(i)` at a positive width, the scroll handler reports page i |
| PageWhy.OnScroll | components/book/pages/PageWhy.tsx:106-114 | the handler records the progress and the nearest page of the current position, and nothing else changes |
| PageWhy.Attach | components/book/pages/PageWhy.tsx:89-124 | listeners are attached exactly when the query matches; off desktop, progress and index are 0; on desktop, the handler has run once |
| PageWhy.DetachedStaysReset | components/book/pages/PageWhy.tsx:82-136 | under any interleaving of wheel, scroll, media-query and unmount events, a mounted page with detached listeners shows progress 0 and index 0 |
| PageWhy.ReachableResetWhenDetached | components/book/pages/PageWhy.tsx:80-136 | starting from progress 0 and index 0, in every state the effect reaches, a mounted page with detached listeners shows progress 0 and index 0 |
| PageWhy.DetachedIgnoresInput | components/book/pages/PageWhy.tsx:116-123 | without listeners, wheel and scroll events change nothing |
| PageWhy.Cleanup | components/book/pages/PageWhy.tsx:132-136 | unmounting removes the wheel and scroll listeners and the media-query listener, and leaves the scroller, progress and index as they were |
| PageWhy.NothingAfterCleanup | components/book/pages/PageWhy.tsx:132-136 | after unmounting, no event has an effect: input finds no listener and a media-query change no longer re-attaches |
| PageWhy.DragBounds | components/book/pages/PageWhy.tsx:416-418 | the right bound is 0; the left bound is 0 exactly when nothing overflows, and is otherwise minus the overflow |
| PageWhy.DragKeepsContentInView | components/book/pages/PageWhy.tsx:416-418 | any drag offset within the bounds keeps the visible window inside the content |
| PageWhy.SectionLabel | components/book/pages/PageWhy.tsx:222 | the label is the page number, ` / `, and the page count: its first part reads back as i + 1 and its last part as the count |
| PageWhy.SectionLabelReadsBack | components/book/pages/PageWhy.tsx:222 | for the four pages the label is seven characters and reads back the page number and the count |
| HomePage.OnWheel | app/page.tsx:22-38 | the handler moves the scroller by deltaY on a vertically dominant turn and leaves exactly one snap pending; on other turns, or with the listener detached, the handler does nothing |
| HomePage.SnapTarget | app/page.tsx:33-35 | NaN exactly at zero width; otherwise a multiple of the width within half a page of the position |
| HomePage.ScrollLeftFor | app/page.tsx:35 | `scrollTo({ left })` goes to a finite left as given, and to 0 for NaN or an infinity |
| HomePage.SnapAtZeroWidth | app/page.tsx:33-35 | at zero width the timer sends the scroller back to position 0, wherever it was |
| HomePage.OnSnapTimer | app/page.tsx:32-36 | the timer scrolls to the snap target and clears itself; with no timer pending nothing happens |
| HomePage.Cleanup | app/page.tsx:41-44 | unmounting detaches the listener and cancels the timer, leaving the scroller where it is |
| HomePage.SnapIdempotent | app/page.tsx:33-35 | a position already on a multiple of the width snaps to itself |
| HomePage.SnapIsNearest | app/page.tsx:33-35 | no multiple of the width is closer to the position than the snap target |
| HomePage.SnapTimerTwice | app/page.tsx:32-36 | a second timer callback changes nothing |
| HomePage.NothingAfterCleanup | app/page.tsx:41-44 | after unmounting, no event moves the scroller or fires a snap |
| HomePage.WheelBurst | app/page.tsx:22-38 | over a burst of wheel turns the handler moves the scroller by the sum of the dominant deltas, and leaves a snap pending exactly when some turn was dominant or a snap was already pending |
| HomePage.BurstThenSnap | app/page.tsx:22-36 | a burst with a dominant turn, then the timer, leaves the scroller on the multiple of the width nearest to where the burst took it |
| HomePage.MountThenBurst | app/page.tsx:16-40 | after mount, a burst of wheel turns leaves a snap pending exactly when some turn was dominant and moves the scroller by the sum of the dominant deltas |
| PageReferences.Dataset | components/book/pages/PageReferences.tsx:126-130 | each tab shows its own four-item list, and the three lists are different |
| PageReferences.IdsAreUnique | components/book/pages/PageReferences.tsx:23-109 | the twelve reference ids are pairwise distinct |
| PageReferences.DatasetInAllItems | components/book/pages/PageReferences.tsx:126-130 | every card of every tab is one of the page's references |
| PageReferences.IdPicksOneCard | components/book/pages/PageReferences.tsx:280 | within a tab, a card's key identifies one card |
| PageReferences.Step | components/book/pages/PageReferences.tsx:207-325 | a tab click changes only the tab; opening card i shows exactly that item of the current list; the close button, or a press on the backdrop (the modal's handlers at lines 497-506), closes the modal; a press on the panel changes nothing |
| PageReferences.RunShowsOnlyReferences | components/book/pages/PageReferences.tsx:114-115 | from the initial state, under any events, the modal only ever shows one of the page's references |
| PageReferences.ReachableShowsOnlyReferences | components/book/pages/PageReferences.tsx:114-115 | the page opens with no modal, so under any events the modal only shows one of the page's references |
| PageReferences.OpenThenClose | components/book/pages/PageReferences.tsx:283-325 | when no modal was open, opening a card and then closing by button or backdrop returns to that state; a press on the panel keeps the card shown |
| PageReferences.TabSwitchKeepsModal | components/book/pages/PageReferences.tsx:207-217 | switching tabs keeps an open reference, even one the new tab does not list |
| PageReferences.CardLabel | components/book/pages/PageReferences.tsx:395 | the card number is at least two digits and reads back as idx + 1 |
| PageReferences.CardLabelsOneLeadingZero | components/book/pages/PageReferences.tsx:395 | the four cards of a list are numbered "0" followed by the digit idx + 1 |

## Left out

- Numbers:
  - Pixel values, wheel deltas and scroll positions are integers. The browser's fractional `scrollLeft` and `deltaY`, and floating-point rounding, are not modelled.
  - The speed factor 1.0 of the home scroller is the integer 1.
  - JavaScript's negative zero is not distinguished from 0.
- Browser scrolling:
  - The browser clamps `scrollLeft` to [0, scrollWidth − clientWidth] after every assignment. This is not modelled: positions are unbounded, and properties that depend on the range say so in their preconditions.
  - Smooth scrolling is modelled as an instant jump to the target.
  - The browser's own scrolling for wheel events the handlers do not cancel is not modelled. Both scrollers allow horizontal overflow scrolling, and the handlers call `preventDefault` only on vertically dominant turns. A mostly horizontal turn, such as a trackpad swipe, therefore scrolls them natively by its horizontal delta, and on the home page no snap follows it. The model's wheel properties describe the handlers only.
  - CSS mandatory scroll snapping is not modelled. The "why" page's scroller (PageWhy.tsx:207) and the method page's horizontal panels scroller (PageMethod.tsx:264-272) are `snap-x snap-mandatory`, so the browser may move them again after a handler's `scrollLeft` assignment or `scrollTo`; on the "why" page this can undo a small `scrollLeft += deltaY`.
  - Section positions on the home scroller are not modelled. The snap goes to multiples of the scroller's width, which the model states. In the source, app/page.tsx:79 holds a stray text node `z` between the references and "why" sections. It becomes a one-glyph-wide flex item, so the last two sections start one glyph after a multiple of the width, and the snap never aligns with them exactly.
  - Nested scrollers: each wheel handler is modelled in isolation. The "why" page's scroller sits inside the home scroller (app/page.tsx:81-83), and neither handler stops propagation. A vertically dominant turn over the "why" page therefore runs both handlers: both scrollers move by deltaY, and a home snap is scheduled.
  - Resize listeners and re-measurement of widths are not modelled: widths change only through the modelled events.
- Timing:
  - The 120 ms snap debounce and the 900 ms stand-in for the submission request are not modelled as time. Only the order in which callbacks fire is kept.
  - React's batching of state updates and its re-rendering are not modelled. Each event sees the state left by the previous one.
- Strings:
  - Strings are sequences of characters, not UTF-16 code units.
  - `PageMethod.MethodStep` and `PageReferences.RefItem` keep only the number, title, id, name and tag. Detail texts and other copy are left out.
- Submission: the submit handler awaits a timer where a real endpoint is meant to be, and that timer never throws. The model lets the awaited work also fail (`Rejected`), so the error path the handler codes for is covered.
- Visuals: animations, springs, motion values, the progress bars' spring smoothing, the experience counter and every purely visual component are not modelled.
- Static pages: the cover, about, services, project and final pages carry no logic and are not part of this model. Neither are the layout and the book chrome.
- PageMethod.PageLabel: a NaN panel index would render as `PAGE NaN`. The label is modelled only for natural panel indices.
- JsString.LowerChar: maps only the ASCII letters A–Z; every other character is left as it is. JsString.Lower applies it to each character.
- JsString.Lower: lower-cases ASCII letters only. The full Unicode case mapping of `toLowerCase` is not modelled. In particular, characters that lower-case into ASCII (the Kelvin sign becomes `k`) could turn a non-ASCII domain into a free-mail one, and the model does not cover that.
- Missing elements: each effect returns early when its scroller element does not exist yet. The model always has a scroller.
- Media-query listeners: the fallback to the older `addListener` API behaves the same as `addEventListener` and is not modelled separately.

=== FILE: home_page.dfy ===
/**
 The home page scroller (app/page.tsx): all sections side by side in one
 horizontal scroller. A vertically dominant wheel turn scrolls it sideways
 and (re)starts a short timer; when the timer fires, the scroller snaps to
 the nearest multiple of its width. The timer is an abstract pending flag: the
 120 ms delay itself is not modelled, only the order of events.
 */
module HomePage {
  import opened JsNumber
  import opened ScrollMetrics

  /** The wheel speed factor, 1.0 in the source. */
  const Speed: int := 1

  /** The scroller, whether a snap timer is pending, and whether the wheel
      listener is attached. */
  datatype Home = Home(m: Metrics, pendingSnap: bool, attached: bool)

  /** After mounting: listener attached, no timer. */
  function Mount(m: Metrics): Home
  {
    Home(m, false, true)
  }

  /** `onWheel`: a vertically dominant turn moves the scroller by
      deltaY * speed, clears any pending timer and schedules a new one, so
      exactly one snap is pending afterwards. Other turns do nothing. */
  function OnWheel(h: Home, deltaX: int, deltaY: int): (r: Home)
    ensures !h.attached || !VerticalDominant(deltaX, deltaY) ==> r == h
    ensures h.attached && VerticalDominant(deltaX, deltaY) ==>
              && r.pendingSnap && r.attached
              && r.m == h.m.(scrollLeft := h.m.scrollLeft + deltaY)
  {
    if h.attached && VerticalDominant(deltaX, deltaY) then
      h.(m := h.m.(scrollLeft := h.m.scrollLeft + deltaY * Speed), pendingSnap := true)
    else h
  }

  /** `Math.round(scrollLeft / pageW) * pageW`. With a zero page width the
      quotient is an infinity or NaN and the product is NaN. */
  function SnapTarget(m: Metrics): (t: Extended)
    ensures m.clientWidth == 0 <==> t.NaN?
    ensures m.clientWidth > 0 ==> t.Finite? && t.n % m.clientWidth == 0
    ensures m.clientWidth > 0 ==>
              -(m.clientWidth as int) < 2 * (t.n - m.scrollLeft) <= m.clientWidth
  {
    var w := m.clientWidth;
    var t := Mul(RoundQuotient(m.scrollLeft, w), w);
    if w > 0 then
      var r := RoundDiv(m.scrollLeft, w);
      assert t == Finite(r * w);
      assert (r * w) % w == 0 by { MultipleMod(r, w); }
      t
    else t
  }

  lemma MultipleMod(r: int, w: int)
    requires w > 0
    ensures (r * w) % w == 0
  {
    var q, m := (r * w) / w, (r * w) % w;
    assert r * w == q * w + m;
    assert (r - q) * w == m;
    MultipleBelowWidth(r - q, w);
  }

  /** The position `scrollTo({ left })` goes to: a non-finite left is
      normalised to 0, as the CSSOM View Module specifies for scroll
      coordinates. */
  function ScrollLeftFor(target: Extended): (left: int)
    ensures target.Finite? ==> left == target.n
    ensures !target.Finite? ==> left == 0
  {
    if target.Finite? then target.n else 0
  }

  /** The timer callback: scroll to the snap target and forget the timer. A
      callback with no pending timer does not exist, so nothing happens. */
  function OnSnapTimer(h: Home): (r: Home)
    ensures !r.pendingSnap && r.attached == h.attached
    ensures !h.pendingSnap ==> r == h
    ensures h.pendingSnap && h.m.clientWidth > 0 ==>
              r.m == h.m.(scrollLeft := SnapTarget(h.m).n)
  {
    if h.pendingSnap then
      h.(m := h.m.(scrollLeft := ScrollLeftFor(SnapTarget(h.m))), pendingSnap := false)
    else h
  }

  /** At zero width the snap target is NaN, so the timer sends the scroller
      back to the start, wherever it was. */
  lemma SnapAtZeroWidth(h: Home)
    requires h.pendingSnap && h.m.clientWidth == 0
    ensures OnSnapTimer(h).m == h.m.(scrollLeft := 0)
  {
  }

  /** The `useEffect` cleanup: remove the listener and clear the timer. */
  function Cleanup(h: Home): (r: Home)
    ensures !r.attached && !r.pendingSnap && r.m == h.m
  {
    h.(attached := false, pendingSnap := false)
  }

  /** A position on a multiple of the width snaps to itself. */
  lemma SnapIdempotent(m: Metrics)
    requires m.clientWidth > 0
    ensures SnapTarget(m.(scrollLeft := SnapTarget(m).n)) == SnapTarget(m)
  {
    var w := m.clientWidth;
    var r := RoundDiv(m.scrollLeft, w);
    assert SnapTarget(m).n == r * w;
    RoundDivOfMultiple(r, w);
  }

  /** The snap lands on the nearest multiple of the width: no multiple is
      closer. */
  lemma SnapIsNearest(m: Metrics, k: int)
    requires m.clientWidth > 0
    ensures var t := SnapTarget(m).n;
            Abs(t - m.scrollLeft) <= Abs(k * m.clientWidth - m.scrollLeft)
  {
    var w := m.clientWidth;
    var r := RoundDiv(m.scrollLeft, w);
    var t := r * w;
    assert SnapTarget(m).n == t;
    var p := (k - r) * w;
    assert k * w == t + p;
    if k != r {
      FarMultiple(k - r, w);
    }
  }

  lemma FarMultiple(d: int, w: int)
    requires w > 0 && d != 0
    ensures d * w >= w || d * w <= -w
  {
    if d > 0 {
      NonNegProduct(d - 1, w);
      assert d * w == (d - 1) * w + w;
    } else {
      NonNegProduct(-d - 1, w);
      assert d * w == -((-d - 1) * w) - w;
    }
  }

  /** Snapping twice is the same as snapping once. */
  lemma SnapTimerTwice(h: Home)
    ensures OnSnapTimer(OnSnapTimer(h)) == OnSnapTimer(h)
  {
  }

  /** What can happen while the page is mounted. */
  datatype HomeEvent = Wheel(deltaX: int, deltaY: int) | SnapTimer | Unmount

  function Step(h: Home, ev: HomeEvent): Home
  {
    match ev
    case Wheel(dx, dy) => OnWheel(h, dx, dy)
    case SnapTimer => OnSnapTimer(h)
    case Unmount => Cleanup(h)
  }

  function Run(h: Home, evs: seq<HomeEvent>): Home
    decreases |evs|
  {
    if evs == [] then h else Run(Step(h, evs[0]), evs[1..])
  }

  /** After the cleanup nothing moves the scroller and no snap fires again. */
  lemma {:induction false} NothingAfterCleanup(h: Home, evs: seq<HomeEvent>)
    ensures Run(Cleanup(h), evs) == Cleanup(h)
    decreases |evs|
  {
    if evs != [] {
      assert Step(Cleanup(h), evs[0]) == Cleanup(h);
      NothingAfterCleanup(h, evs[1..]);
    }
  }

  predicate AllWheels(evs: seq<HomeEvent>)
  {
    forall k :: 0 <= k < |evs| ==> evs[k].Wheel?
  }

  /** The total horizontal movement of a burst of wheel turns: the vertical
      deltas of the vertically dominant ones. */
  function DominantSum(evs: seq<HomeEvent>): int
    requires AllWheels(evs)
    decreases |evs|
  {
    if evs == [] then 0
    else
      (if VerticalDominant(evs[0].deltaX, evs[0].deltaY) then evs[0].deltaY * Speed else 0)
      + DominantSum(evs[1..])
  }

  predicate AnyDominant(evs: seq<HomeEvent>)
    requires AllWheels(evs)
  {
    exists k :: 0 <= k < |evs| && VerticalDominant(evs[k].deltaX, evs[k].deltaY)
  }

  /** A burst of wheel turns on the mounted page moves the scroller by the sum
      of its dominant deltas, and leaves one snap pending exactly when some
      turn was dominant (or one was pending already). */
  lemma {:induction false} WheelBurst(h: Home, evs: seq<HomeEvent>)
    requires h.attached && AllWheels(evs)
    ensures Run(h, evs) == h.(m := h.m.(scrollLeft := h.m.scrollLeft + DominantSum(evs)),
                              pendingSnap := h.pendingSnap || AnyDominant(evs))
    decreases |evs|
  {
    if evs != [] {
      var h1 := Step(h, evs[0]);
      WheelBurst(h1, evs[1..]);
      if AnyDominant(evs[1..]) {
        var k :| 0 <= k < |evs[1..]| && VerticalDominant(evs[1..][k].deltaX, evs[1..][k].deltaY);
        assert evs[k + 1] == evs[1..][k];
      }
      if AnyDominant(evs) && !VerticalDominant(evs[0].deltaX, evs[0].deltaY) {
        var k :| 0 <= k < |evs| && VerticalDominant(evs[k].deltaX, evs[k].deltaY);
        assert evs[1..][k - 1] == evs[k];
      }
    } else {
      assert h.m.(scrollLeft := h.m.scrollLeft + 0) == h.m;
    }
  }

  /** A burst with at least one dominant turn, followed by the timer, leaves
      the scroller on the multiple of the width nearest to where the burst
      took it. */
  lemma BurstThenSnap(h: Home, evs: seq<HomeEvent>)
    requires h.attached && h.m.clientWidth > 0 && AllWheels(evs) && AnyDominant(evs)
    ensures var moved := h.m.(scrollLeft := h.m.scrollLeft + DominantSum(evs));
            && Run(h, evs + [SnapTimer]) == h.(m := moved.(scrollLeft := SnapTarget(moved).n), pendingSnap := false)
            && Run(h, evs + [SnapTimer]).m.scrollLeft % h.m.clientWidth == 0
  {
    WheelBurst(h, evs);
    RunAppend(h, evs, [SnapTimer]);
  }

  /** From mount, a burst of wheel turns leaves a snap pending exactly when
      some turn was vertically dominant, and moves the scroller by the sum of
      the dominant deltas. */
  lemma MountThenBurst(m: Metrics, evs: seq<HomeEvent>)
    requires AllWheels(evs)
    ensures Run(Mount(m), evs).pendingSnap <==> AnyDominant(evs)
    ensures Run(Mount(m), evs).m == m.(scrollLeft := m.scrollLeft + DominantSum(evs))
  {
    WheelBurst(Mount(m), evs);
  }

  lemma {:induction false} RunAppend(h: Home, a: seq<HomeEvent>, b: seq<HomeEvent>)
    ensures Run(h, a + b) == Run(Run(h, a), b)
    decreases |a|
  {
    if a == [] {
      assert a + b == b;
    } else {
      assert (a + b)[1..] == a[1..] + b;
      RunAppend(Step(h, a[0]), a[1..], b);
    }
  }
}

=== FILE: js_number.dfy ===
/**
 The few pieces of JavaScript number behaviour the page components rely on:
 `Math.round` applied to a quotient of two pixel values, division by a zero
 width (which yields an infinity or NaN rather than an error), and
 `Math.max` / `Math.min` / multiplication on such values.

 Pixel values are modelled as integers, so a quotient `x / w` is a rational
 number; `Math.round` rounds half-way cases toward positive infinity.
 */
module JsNumber {

  /** A JavaScript number restricted to what the components can produce from
      integer pixel values: an integer after rounding, an infinity, or NaN. */
  datatype Extended = Finite(n: int) | PosInf | NegInf | NaN

  /** The reference meaning of `Math.round`: the nearest integer, half-way
      cases going up (floor of r + 1/2). */
  function RoundReal(r: real): int
  {
    (r + 0.5).Floor
  }

  /** `Math.round(x / w)` for integer x and positive integer w, computed
      without leaving the integers. The contract pins the result down: the
      quotient x/w lies in the half-open interval [r - 1/2, r + 1/2). */
  function RoundDiv(x: int, w: int): (r: int)
    requires w > 0
    ensures 2 * r * w - w <= 2 * x < 2 * r * w + w
  {
    var q := (2 * x + w) / (2 * w);
    assert 2 * x + w == q * (2 * w) + (2 * x + w) % (2 * w);
    assert q * (2 * w) == 2 * q * w;
    q
  }

  /** RoundDiv agrees with the real-valued definition of `Math.round`. */
  lemma RoundDivIsMathRound(x: int, w: int)
    requires w > 0
    ensures RoundDiv(x, w) == RoundReal(x as real / w as real)
  {
    var r := RoundDiv(x, w);
    var wr := w as real;
    var a := x as real / wr;
    var p := r * w;
    CastProduct(r, w);
    assert 2 * p - w <= 2 * x < 2 * p + w;
    QuotientBounds(x as real, wr, a, r as real, p as real);
    FloorBetween(a + 0.5, r);
  }

  lemma QuotientBounds(x: real, w: real, a: real, r: real, p: real)
    requires w > 0.0 && a == x / w && p == r * w
    requires 2.0 * p - w <= 2.0 * x < 2.0 * p + w
    ensures r <= a + 0.5 < r + 1.0
  {
    assert a * w == x;
    assert (a + 0.5) * w == x + 0.5 * w;
    RealScaleOrder(r, a + 0.5, w);
    assert (r + 1.0) * w == p + w;
    RealScaleStrict(a + 0.5, r + 1.0, w);
  }

  lemma CastProduct(a: int, b: int)
    ensures (a * b) as real == a as real * b as real
  {
  }

  lemma RealScaleOrder(a: real, b: real, c: real)
    requires c > 0.0
    requires a * c <= b * c
    ensures a <= b
  {
  }

  lemma RealDivMonotone(x: real, y: real, w: real)
    requires w > 0.0 && x <= y
    ensures x / w <= y / w
  {
    RealScaleOrder(x / w, y / w, w);
  }

  lemma RealScaleStrict(a: real, b: real, c: real)
    requires c > 0.0
    requires a * c < b * c
    ensures a < b
  {
  }

  lemma FloorBetween(q: real, r: int)
    requires r as real <= q < r as real + 1.0
    ensures q.Floor == r
  {
  }

  /** A multiple of a positive width that lies strictly between -w and w is 0. */
  lemma MultipleBelowWidth(d: int, w: int)
    requires w > 0
    requires -w < d * w < w
    ensures d == 0
  {
    if d >= 1 {
      assert d * w == (d - 1) * w + w;
      NonNegProduct(d - 1, w);
    } else if d <= -1 {
      assert d * w == -((-d - 1) * w) - w;
      NonNegProduct(-d - 1, w);
    }
  }

  lemma NonNegProduct(a: int, b: int)
    requires a >= 0 && b >= 0
    ensures a * b >= 0
  {
  }

  /** Rounding is unique: any k whose half-open interval holds x/w is RoundDiv. */
  lemma RoundDivUnique(x: int, w: int, k: int)
    requires w > 0
    requires 2 * k * w - w <= 2 * x < 2 * k * w + w
    ensures RoundDiv(x, w) == k
  {
    var r := RoundDiv(x, w);
    assert 2 * r * w - 2 * k * w == 2 * ((r - k) * w);
    MultipleBelowWidth(r - k, w);
  }

  /** A position below the upper edge of page k's rounding interval rounds
      to at most k. */
  lemma RoundDivAtMost(x: int, w: int, k: int)
    requires w > 0 && 2 * x < 2 * k * w + w
    ensures RoundDiv(x, w) <= k
  {
    var r := RoundDiv(x, w);
    assert 2 * r * w - 2 * k * w == 2 * ((r - k) * w);
    ProductBelowWidth(r - k, w);
  }

  /** A position at or above the lower edge of page k's rounding interval
      rounds to at least k. */
  lemma RoundDivAtLeast(x: int, w: int, k: int)
    requires w > 0 && 2 * k * w - w <= 2 * x
    ensures RoundDiv(x, w) >= k
  {
    var r := RoundDiv(x, w);
    assert 2 * k * w - 2 * r * w == 2 * ((k - r) * w);
    ProductBelowWidth(k - r, w);
  }

  /** A multiple of a positive width below that width has a factor of at most 0. */
  lemma ProductBelowWidth(d: int, w: int)
    requires w > 0 && d * w < w
    ensures d <= 0
  {
    if d >= 1 {
      assert d * w == (d - 1) * w + w;
      NonNegProduct(d - 1, w);
    }
  }

  /** An exact multiple of the width rounds to its own page number. */
  lemma RoundDivOfMultiple(k: int, w: int)
    requires w > 0
    ensures RoundDiv(k * w, w) == k
  {
    RoundDivUnique(k * w, w, k);
  }

  /** Rounding is monotone in the numerator. */
  lemma RoundDivMonotone(x: int, y: int, w: int)
    requires w > 0
    requires x <= y
    ensures RoundDiv(x, w) <= RoundDiv(y, w)
  {
    var a := RoundDiv(x, w);
    var b := RoundDiv(y, w);
    if a > b {
      assert 2 * a * w - 2 * b * w == 2 * ((a - b) * w);
      assert (a - b) * w == (a - b - 1) * w + w;
      NonNegProduct(a - b - 1, w);
    }
  }

  /** `Math.round(x / w)` for a width that may be zero, as JavaScript evaluates
      it: a positive number over zero is +Infinity, a negative one -Infinity,
      and 0 / 0 is NaN; rounding keeps infinities and NaN as they are. */
  function RoundQuotient(x: int, w: nat): (r: Extended)
    ensures w > 0 ==> r == Finite(RoundDiv(x, w))
    ensures r.NaN? <==> w == 0 && x == 0
    ensures r.PosInf? <==> w == 0 && x > 0
    ensures r.NegInf? <==> w == 0 && x < 0
  {
    if w > 0 then Finite(RoundDiv(x, w))
    else if x > 0 then PosInf
    else if x < 0 then NegInf
    else NaN
  }

  /** The numeric order on non-NaN values. */
  predicate AtMost(a: Extended, b: Extended)
    requires !a.NaN? && !b.NaN?
  {
    match (a, b)
    case (NegInf, _) => true
    case (_, PosInf) => true
    case (Finite(x), Finite(y)) => x <= y
    case _ => false
  }

  /** `Math.max(a, b)`: NaN if either argument is NaN, else the larger. */
  function Max(a: Extended, b: Extended): (r: Extended)
    ensures r.NaN? <==> a.NaN? || b.NaN?
    ensures !r.NaN? ==> AtMost(a, r) && AtMost(b, r) && (r == a || r == b)
  {
    if a.NaN? || b.NaN? then NaN
    else if AtMost(a, b) then b
    else a
  }

  /** `Math.min(a, b)`: NaN if either argument is NaN, else the smaller. */
  function Min(a: Extended, b: Extended): (r: Extended)
    ensures r.NaN? <==> a.NaN? || b.NaN?
    ensures !r.NaN? ==> AtMost(r, a) && AtMost(r, b) && (r == a || r == b)
  {
    if a.NaN? || b.NaN? then NaN
    else if AtMost(a, b) then a
    else b
  }

  /** `Math.min(hi, Math.max(lo, e))`: clamping an index into [lo, hi]. */
  function Clamp(e: Extended, lo: int, hi: int): (r: Extended)
    requires lo <= hi
    ensures r.NaN? <==> e.NaN?
    ensures r.Finite? ==> lo <= r.n <= hi
    ensures !e.NaN? ==> r.Finite?
    ensures e.Finite? && lo <= e.n <= hi ==> r == e
    ensures e.PosInf? ==> r == Finite(hi)
    ensures e.NegInf? ==> r == Finite(lo)
    ensures e.Finite? && e.n > hi ==> r == Finite(hi)
    ensures e.Finite? && e.n < lo ==> r == Finite(lo)
  {
    Min(Finite(hi), Max(Finite(lo), e))
  }

  /** `e * k` for an integer factor k, as JavaScript multiplies: an infinity
      times zero, and NaN times anything, is NaN. */
  function Mul(e: Extended, k: int): (r: Extended)
    ensures e.Finite? ==> r == Finite(e.n * k)
    ensures r.NaN? <==> e.NaN? || (!e.Finite? && k == 0)
    ensures (e.PosInf? || e.NegInf?) && k != 0 ==> r == (if e.PosInf? == (k > 0) then PosInf else NegInf)
  {
    match e
    case Finite(n) => Finite(n * k)
    case NaN => NaN
    case PosInf => if k > 0 then PosInf else if k < 0 then NegInf else NaN
    case NegInf => if k > 0 then NegInf else if k < 0 then PosInf else NaN
  }
}

=== FILE: js_string.dfy ===
/**
 The JavaScript string operations the components use: the whitespace class
 shared by the regular-expression escape `\s` and `String.prototype.trim`,
 `trim`, ASCII lower-casing, `split` on a single character, and
 `String(k).padStart(2, "0")` for the two-digit counters.
 */
module JsString {

  /** ECMAScript WhiteSpace and LineTerminator code points: tab, line feed,
      vertical tab, form feed, carriage return, space, no-break space, the
      byte-order mark, and the space separators and line/paragraph
      separators of Unicode. Both `\s` and `trim()` use exactly this set. */
  predicate IsWhitespace(c: char)
  {
    var u := c as int;
    (0x09 <= u <= 0x0D) || u == 0x20 || u == 0xA0 || u == 0x1680
    || (0x2000 <= u <= 0x200A) || u == 0x2028 || u == 0x2029
    || u == 0x202F || u == 0x205F || u == 0x3000 || u == 0xFEFF
  }

  predicate AllWhitespace(s: string)
  {
    forall k :: 0 <= k < |s| ==> IsWhitespace(s[k])
  }

  /** The length of the longest all-whitespace prefix of s. */
  function LeadingWhitespace(s: string): (n: nat)
    ensures n <= |s|
    ensures forall k :: 0 <= k < n ==> IsWhitespace(s[k])
    ensures n < |s| ==> !IsWhitespace(s[n])
    decreases |s|
  {
    if |s| > 0 && IsWhitespace(s[0]) then
      var m := LeadingWhitespace(s[1..]);
      assert forall k :: 0 < k < 1 + m ==> s[k] == s[1..][k - 1];
      1 + m
    else 0
  }

  /** Where the longest all-whitespace suffix of s starts. */
  function TrailingWhitespace(s: string): (n: nat)
    ensures n <= |s|
    ensures forall k :: n <= k < |s| ==> IsWhitespace(s[k])
    ensures 0 < n ==> !IsWhitespace(s[n - 1])
    decreases |s|
  {
    if |s| > 0 && IsWhitespace(s[|s| - 1]) then
      var m := TrailingWhitespace(s[..|s| - 1]);
      assert forall k :: m <= k < |s| - 1 ==> s[k] == s[..|s| - 1][k];
      m
    else |s|
  }

  /** A whitespace run followed by a non-whitespace character (or the end)
      is exactly the leading whitespace. */
  lemma LeadingWhitespaceUnique(s: string, n: nat)
    requires n <= |s| && AllWhitespace(s[..n]) && (n < |s| ==> !IsWhitespace(s[n]))
    ensures LeadingWhitespace(s) == n
  {
  }

  /** A non-whitespace character (or the start) followed by a whitespace run
      marks exactly where the trailing whitespace starts. */
  lemma TrailingWhitespaceUnique(s: string, n: nat)
    requires n <= |s| && AllWhitespace(s[n..]) && (0 < n ==> !IsWhitespace(s[n - 1]))
    ensures TrailingWhitespace(s) == n
  {
  }

  /** `trimStart`: drop the longest all-whitespace prefix. */
  function TrimStart(s: string): (r: string)
    ensures |r| <= |s| && r == s[|s| - |r|..]
    ensures AllWhitespace(s[..|s| - |r|])
    ensures r == [] || !IsWhitespace(r[0])
  {
    s[LeadingWhitespace(s)..]
  }

  /** `trimEnd`: drop the longest all-whitespace suffix. */
  function TrimEnd(s: string): (r: string)
    ensures |r| <= |s| && r == s[..|r|]
    ensures AllWhitespace(s[|r|..])
    ensures r == [] || !IsWhitespace(r[|r| - 1])
  {
    s[..TrailingWhitespace(s)]
  }

  /** `String.prototype.trim`. */
  function Trim(s: string): (r: string)
  {
    TrimEnd(TrimStart(s))
  }

  /** Where the trimmed text starts inside s. */
  function TrimOffset(s: string): nat
  {
    |s| - |TrimStart(s)|
  }

  /** The trimmed string is the slice of s between its first and its last
      non-whitespace characters: everything cut off is whitespace, and the
      result neither starts nor ends with whitespace. */
  lemma TrimIsInnerSlice(s: string)
    ensures TrimOffset(s) + |Trim(s)| <= |s|
    ensures Trim(s) == s[TrimOffset(s)..TrimOffset(s) + |Trim(s)|]
    ensures AllWhitespace(s[..TrimOffset(s)])
    ensures AllWhitespace(s[TrimOffset(s) + |Trim(s)|..])
    ensures Trim(s) == [] || (!IsWhitespace(Trim(s)[0]) && !IsWhitespace(Trim(s)[|Trim(s)| - 1]))
  {
  }

  /** trim() yields the empty string exactly when every character is whitespace. */
  lemma TrimEmptyIffAllWhitespace(s: string)
    ensures Trim(s) == [] <==> AllWhitespace(s)
  {
    var a := TrimStart(s);
    if Trim(s) == [] {
      assert AllWhitespace(a[0..]);
      assert s == s[..|s| - |a|] + a;
    }
  }

  /** trim() leaves alone a string that neither starts nor ends with whitespace,
      and strips any whitespace placed around such a string. */
  lemma TrimAround(pre: string, s: string, post: string)
    requires AllWhitespace(pre) && AllWhitespace(post)
    requires s != [] && !IsWhitespace(s[0]) && !IsWhitespace(s[|s| - 1])
    ensures Trim(pre + s + post) == s
  {
    var t := pre + s + post;
    assert t == pre + (s + post);
    assert (s + post)[0] == s[0];
    TrimStartPast(pre, s + post);
    assert TrimStart(t) == s + post;
    TrimEndPast(s, post);
  }

  lemma TrimStartPast(pre: string, t: string)
    requires AllWhitespace(pre)
    requires t != [] && !IsWhitespace(t[0])
    ensures TrimStart(pre + t) == t
  {
    var s := pre + t;
    assert s[..|pre|] == pre && s[|pre|] == t[0];
    LeadingWhitespaceUnique(s, |pre|);
    assert s[|pre|..] == t;
  }

  lemma TrimEndPast(t: string, post: string)
    requires AllWhitespace(post)
    requires t != [] && !IsWhitespace(t[|t| - 1])
    ensures TrimEnd(t + post) == t
  {
    var s := t + post;
    assert s[|t|..] == post && s[|t| - 1] == t[|t| - 1];
    TrailingWhitespaceUnique(s, |t|);
    assert s[..|t|] == t;
  }

  /** ASCII lower-casing of one character. */
  function LowerChar(c: char): (r: char)
    ensures 'A' <= c <= 'Z' ==> 'a' <= r <= 'z' && r as int == c as int + 32
    ensures !('A' <= c <= 'Z') ==> r == c
  {
    if 'A' <= c <= 'Z' then (c as int + 32) as char else c
  }

  /** `toLowerCase`, restricted to ASCII letters. */
  function Lower(s: string): (r: string)
    ensures |r| == |s|
    ensures forall k :: 0 <= k < |s| ==> r[k] == LowerChar(s[k])
  {
    seq(|s|, k requires 0 <= k < |s| => LowerChar(s[k]))
  }

  /** Lower-casing is idempotent, so a string and its lower-cased form have
      the same lower-cased form. */
  lemma LowerIdempotent(s: string)
    ensures Lower(Lower(s)) == Lower(s)
  {
  }

  /** `s.split(c)` for a one-character separator: the pieces between the
      occurrences of c, always at least one piece, none containing c. */
  function Split(s: string, c: char): (r: seq<string>)
    ensures |r| >= 1
    ensures forall k :: 0 <= k < |r| ==> c !in r[k]
    ensures |r| == 1 <==> c !in s
  {
    if s == [] then [[]]
    else
      var rest := Split(s[1..], c);
      if s[0] == c then [[]] + rest
      else [[s[0]] + rest[0]] + rest[1..]
  }

  /** `pieces.join(c)`. */
  function Join(pieces: seq<string>, c: char): string
    requires |pieces| >= 1
  {
    if |pieces| == 1 then pieces[0]
    else pieces[0] + [c] + Join(pieces[1..], c)
  }

  /** Splitting and joining again gives back the original string. */
  lemma {:induction false} JoinSplit(s: string, c: char)
    ensures Join(Split(s, c), c) == s
  {
    if s != [] {
      var rest := Split(s[1..], c);
      JoinSplit(s[1..], c);
      if s[0] == c {
        assert Split(s, c)[1..] == rest;
      } else {
        var r := Split(s, c);
        if |rest| == 1 {
          assert r == [[s[0]] + rest[0]];
        } else {
          assert r[1..] == rest[1..];
          assert Join(rest, c) == rest[0] + [c] + Join(rest[1..], c);
        }
      }
    }
  }

  /** A prefix without the separator is glued onto the first piece of what follows. */
  lemma {:induction false} SplitPrefix(d: string, t: string, c: char)
    requires c !in d
    ensures Split(d + t, c) == [d + Split(t, c)[0]] + Split(t, c)[1..]
  {
    if d != [] {
      assert (d + t)[1..] == d[1..] + t;
      SplitPrefix(d[1..], t, c);
      var rest := Split(d[1..] + t, c);
      assert rest[0] == d[1..] + Split(t, c)[0];
      assert rest[1..] == Split(t, c)[1..];
      assert [d[0]] + (d[1..] + Split(t, c)[0]) == d + Split(t, c)[0];
    } else {
      assert d + t == t;
      assert d + Split(t, c)[0] == Split(t, c)[0];
      assert Split(t, c) == [Split(t, c)[0]] + Split(t, c)[1..];
    }
  }

  /** A piece followed by the separator: the piece comes out first. */
  lemma SplitAtSeparator(d: string, t: string, c: char)
    requires c !in d
    ensures Split(d + [c] + t, c) == [d] + Split(t, c)
  {
    SplitPrefix(d, [c] + t, c);
    assert d + [c] + t == d + ([c] + t);
    assert ([c] + t)[1..] == t;
    assert Split([c] + t, c) == [[]] + Split(t, c);
    assert d + [] == d;
  }

  function DigitChar(d: nat): (r: char)
    requires d < 10
    ensures '0' <= r <= '9'
  {
    ('0' as int + d) as char
  }

  predicate IsDigit(c: char)
  {
    '0' <= c <= '9'
  }

  /** `String(k)` for a natural number: its decimal digits, without leading zeros. */
  function Decimal(k: nat): (r: string)
    ensures 1 <= |r|
    ensures forall i :: 0 <= i < |r| ==> IsDigit(r[i])
    ensures |r| > 1 ==> r[0] != '0'
    ensures |r| == 1 <==> k < 10
  {
    if k < 10 then [DigitChar(k)] else Decimal(k / 10) + [DigitChar(k % 10)]
  }

  /** The value of a string of decimal digits (leading zeros allowed). */
  function DigitsValue(s: string): nat
    requires forall i :: 0 <= i < |s| ==> IsDigit(s[i])
  {
    if s == [] then 0
    else
      var last := s[|s| - 1];
      assert IsDigit(last);
      DigitsValue(s[..|s| - 1]) * 10 + (last as int - '0' as int)
  }

  /** s is a string of decimal digits whose value is k. */
  predicate ReadsAs(s: string, k: nat)
  {
    (forall i :: 0 <= i < |s| ==> IsDigit(s[i])) && DigitsValue(s) == k
  }

  /** Reading the decimal string back gives the number. */
  lemma {:induction false} DecimalRoundTrip(k: nat)
    ensures DigitsValue(Decimal(k)) == k
  {
    if k >= 10 {
      var s := Decimal(k);
      assert s[..|s| - 1] == Decimal(k / 10);
      DecimalRoundTrip(k / 10);
    }
  }

  /** A leading zero does not change the value of a digit string. */
  lemma {:induction false} LeadingZeroValue(s: string)
    requires forall i :: 0 <= i < |s| ==> IsDigit(s[i])
    ensures DigitsValue(['0'] + s) == DigitsValue(s)
  {
    if s != [] {
      var t := ['0'] + s;
      assert t[..|t| - 1] == ['0'] + s[..|s| - 1];
      LeadingZeroValue(s[..|s| - 1]);
    }
  }

  /** `s.padStart(n, "0")`: left-pad with zeros to length n; a string
      already that long is returned unchanged. */
  function PadZeros(s: string, n: nat): (r: string)
    ensures |r| == if |s| >= n then |s| else n
    ensures r[|r| - |s|..] == s
    ensures forall i :: 0 <= i < |r| - |s| ==> r[i] == '0'
  {
    if |s| >= n then s
    else
      var r := Zeros(n - |s|) + s;
      assert r[|r| - |s|..] == s;
      r
  }

  /** k zero characters. */
  function Zeros(k: nat): (z: string)
    ensures |z| == k && forall i :: 0 <= i < k ==> z[i] == '0'
  {
    seq(k, _ => '0')
  }

  /** `String(k).padStart(2, "0")`. */
  function Pad2(k: nat): string
  {
    PadZeros(Decimal(k), 2)
  }

  /** The two-digit counter reads back as the number it was made from. */
  lemma Pad2ReadsAs(k: nat)
    ensures ReadsAs(Pad2(k), k)
  {
    Pad2Meaning(k);
  }

  /** A one-digit number gets a single leading zero. */
  lemma Pad2OneDigit(k: nat)
    requires k <= 9
    ensures Pad2(k) == ['0', DigitChar(k)]
  {
    assert Decimal(k) == [DigitChar(k)];
    assert PadZeros([DigitChar(k)], 2) == PadZeros(['0', DigitChar(k)], 2);
  }

  /** A zero followed by one digit reads back as that digit. */
  lemma PaddedDigitValue(k: nat)
    requires k <= 9
    ensures DigitsValue(['0', DigitChar(k)]) == k
  {
    var s := ['0', DigitChar(k)];
    assert s[..1] == ['0'];
    assert ['0'][..0] == [];
  }

  /** The two-digit counter has two characters exactly when k < 100, consists
      of digits, and reads back as k. */
  lemma Pad2Meaning(k: nat)
    ensures |Pad2(k)| == if k < 100 then 2 else |Decimal(k)|
    ensures forall i :: 0 <= i < |Pad2(k)| ==> IsDigit(Pad2(k)[i])
    ensures DigitsValue(Pad2(k)) == k
  {
    var d := Decimal(k);
    DecimalRoundTrip(k);
    if k < 10 {
      assert Pad2(k) == ['0'] + d;
      LeadingZeroValue(d);
    } else {
      assert |Decimal(k / 10)| >= 1;
      if k < 100 {
        assert |Decimal(k / 10)| == 1;
      } else {
        assert |Decimal(k / 10)| >= 2;
      }
    }
  }
}

=== FILE: page_download.dfy ===
/**
 The lead form of the download page (components/book/pages/PageDownload.tsx):
 three text fields, a submission status, the derived guards `emailOk` and
 `canSubmit`, the submit handler and the button label.

 The submit handler is asynchronous: it sets the status to loading, awaits
 some work, then sets success, or error if the awaited work throws. The
 model splits it into the synchronous part (`Submit`) and the two ways the
 awaited work can end (`Resolved`, `Rejected`); `inFlight` records that a
 handler is suspended at its `await`.
 */
module PageDownload {
  import opened JsString
  import opened Validators

  datatype Status = Idle | Loading | Success | Error

  datatype Form = Form(name: string, company: string, email: string)

  datatype Lead = Lead(form: Form, status: Status, inFlight: bool)

  /** The state on first render: empty fields, idle, nothing pending. */
  const Initial: Lead := Lead(Form("", "", ""), Idle, false)

  /** `emailOk`: the email pattern applied to the trimmed field. */
  function EmailOk(email: string): bool
  {
    IsValidEmail(Trim(email))
  }

  /** Whitespace around a valid address is tolerated. */
  lemma EmailOkIgnoresPadding(pre: string, e: string, post: string)
    requires AllWhitespace(pre) && AllWhitespace(post)
    requires IsValidEmail(e)
    ensures EmailOk(pre + e + post)
  {
    IsValidEmailMatchesPattern(e);
    assert e != [];
    if IsWhitespace(e[0]) {
      WhitespaceRejected(e, 0);
    }
    if IsWhitespace(e[|e| - 1]) {
      WhitespaceRejected(e, |e| - 1);
    }
    TrimAround(pre, e, post);
  }

  /** Whitespace inside the trimmed address still makes it invalid. */
  lemma EmailOkRejectsInnerWhitespace(email: string, k: int)
    requires 0 <= k < |Trim(email)| && IsWhitespace(Trim(email)[k])
    ensures !EmailOk(email)
  {
    WhitespaceRejected(Trim(email), k);
  }

  /** A field counts as filled when `field.trim()` is not empty. */
  predicate Filled(field: string)
  {
    Trim(field) != []
  }

  /** A field is filled exactly when it has a character that is not whitespace. */
  lemma FilledMeansVisibleCharacter(field: string)
    ensures Filled(field) <==> exists k :: 0 <= k < |field| && !IsWhitespace(field[k])
  {
    TrimEmptyIffAllWhitespace(field);
  }

  /** `canSubmit`. */
  predicate CanSubmit(st: Lead)
  {
    Filled(st.form.name) && Filled(st.form.company) && EmailOk(st.form.email) && st.status != Loading
  }

  /** What the user can do, and how the awaited submission work can end. */
  datatype LeadEvent =
    | EditName(name: string)
    | EditCompany(company: string)
    | EditEmail(email: string)
    | Submit
    | Resolved
    | Rejected

  /** One event. An edit replaces one field. A submit does nothing unless
      `canSubmit`, and otherwise enters loading and suspends at its await.
      The end of the awaited work exists only for a suspended handler; it
      sets success, or error when the work threw. */
  function Step(st: Lead, ev: LeadEvent): (r: Lead)
    ensures ev.Submit? && !CanSubmit(st) ==> r == st
    ensures ev.Submit? && CanSubmit(st) ==> r.status == Loading && r.inFlight && r.form == st.form
  {
    match ev
    case EditName(v) => st.(form := st.form.(name := v))
    case EditCompany(v) => st.(form := st.form.(company := v))
    case EditEmail(v) => st.(form := st.form.(email := v))
    case Submit => if CanSubmit(st) then st.(status := Loading, inFlight := true) else st
    case Resolved => if st.inFlight then st.(status := Success, inFlight := false) else st
    case Rejected => if st.inFlight then st.(status := Error, inFlight := false) else st
  }

  function Run(st: Lead, evs: seq<LeadEvent>): Lead
    decreases |evs|
  {
    if evs == [] then st else Run(Step(st, evs[0]), evs[1..])
  }

  /** A handler is suspended exactly while the status is loading. */
  predicate LoadingIffInFlight(st: Lead)
  {
    st.inFlight <==> st.status == Loading
  }

  lemma StepKeepsLoadingIffInFlight(st: Lead, ev: LeadEvent)
    requires LoadingIffInFlight(st)
    ensures LoadingIffInFlight(Step(st, ev))
  {
  }

  /** Every state reachable from the initial state, by any sequence of edits,
      submits and completions, is loading exactly when a submission is in
      flight; hence at most one submission is ever in flight. */
  lemma {:induction false} RunKeepsLoadingIffInFlight(st: Lead, evs: seq<LeadEvent>)
    requires LoadingIffInFlight(st)
    ensures LoadingIffInFlight(Run(st, evs))
    decreases |evs|
  {
    if evs != [] {
      StepKeepsLoadingIffInFlight(st, evs[0]);
      RunKeepsLoadingIffInFlight(Step(st, evs[0]), evs[1..]);
    }
  }

  /** The first render satisfies the invariant, so every state the form
      reaches does. */
  lemma ReachableLoadingIffInFlight(evs: seq<LeadEvent>)
    ensures LoadingIffInFlight(Run(Initial, evs))
  {
    RunKeepsLoadingIffInFlight(Initial, evs);
  }

  /** A valid submit followed by the end of the awaited work goes to success
      (or error) and leaves the fields as they were. */
  lemma SubmitThenComplete(st: Lead)
    requires CanSubmit(st)
    ensures Step(Step(st, Submit), Resolved) == st.(status := Success, inFlight := false)
    ensures Step(Step(st, Submit), Rejected) == st.(status := Error, inFlight := false)
  {
  }

  /** While loading, a second submit is a no-op. */
  lemma SubmitWhileLoading(st: Lead)
    requires st.status == Loading
    ensures Step(st, Submit) == st
  {
  }

  /** The only way into the error status is the awaited work throwing while a
      submission is in flight. */
  lemma ErrorOnlyFromRejection(st: Lead, ev: LeadEvent)
    requires st.status != Error && Step(st, ev).status == Error
    ensures ev == Rejected && st.inFlight
  {
  }

  /** Success is reached only by completing a submission that was in flight,
      and that submission had passed the guard, so the form it started from
      was complete: the lemma names the submit that did it. */
  lemma {:induction false} SuccessNeedsValidSubmit(st: Lead, evs: seq<LeadEvent>) returns (k: nat)
    requires st.status != Success && !st.inFlight
    requires Run(st, evs).status == Success
    ensures k < |evs| && evs[k] == Submit && CanSubmit(Run(st, evs[..k]))
    decreases |evs|
  {
    assert evs != [];
    var s1 := Step(st, evs[0]);
    assert Run(st, evs) == Run(s1, evs[1..]);
    if evs[0] == Submit && CanSubmit(st) {
      k := 0;
      assert Run(st, evs[..0]) == st;
    } else {
      assert s1.status != Success && !s1.inFlight;
      var j := SuccessNeedsValidSubmit(s1, evs[1..]);
      RunOfPrefix(st, evs, j + 1);
      k := j + 1;
    }
  }

  /** Running the first k + 1 events is one step followed by the next k. */
  lemma RunOfPrefix(st: Lead, evs: seq<LeadEvent>, n: nat)
    requires 0 < n <= |evs|
    ensures Run(st, evs[..n]) == Run(Step(st, evs[0]), evs[1..][..n - 1])
  {
    var p := evs[..n];
    assert p[0] == evs[0];
    assert p[1..] == evs[1..][..n - 1];
  }

  /** Each edit replaces its own field and keeps the other two and the status. */
  lemma EditsTouchOneField(st: Lead, v: string)
    ensures Step(st, EditName(v)) == Lead(Form(v, st.form.company, st.form.email), st.status, st.inFlight)
    ensures Step(st, EditCompany(v)) == Lead(Form(st.form.name, v, st.form.email), st.status, st.inFlight)
    ensures Step(st, EditEmail(v)) == Lead(Form(st.form.name, st.form.company, v), st.status, st.inFlight)
  {
  }

  /** The submit button's text. */
  function ButtonLabel(status: Status): (r: string)
    ensures r == "ENVOI..." <==> status == Loading
    ensures r == "ENVOYÉ" <==> status == Success
    ensures r == "RECEVOIR LE DOSSIER" <==> status == Idle || status == Error
  {
    match status
    case Loading => "ENVOI..."
    case Success => "ENVOYÉ"
    case Idle => "RECEVOIR LE DOSSIER"
    case Error => "RECEVOIR LE DOSSIER"
  }

  /** The feedback the email field gives through its border. */
  datatype EmailHint = NoHint | LooksValid | NotYetValid

  /** No hint while the field is empty, then valid or not yet valid. */
  function EmailFieldHint(email: string): (h: EmailHint)
    ensures h == NoHint <==> email == []
    ensures h == LooksValid <==> email != [] && EmailOk(email)
  {
    if |email| == 0 then NoHint else if EmailOk(email) then LooksValid else NotYetValid
  }

  /** The glyph after the button text: an ellipsis while sending, an arrow
      otherwise. */
  function ButtonGlyph(status: Status): (r: string)
    ensures r == "…" <==> status == Loading
    ensures r == "→" <==> status != Loading
  {
    if status == Loading then "…" else "→"
  }

  /** The message under the button. */
  datatype Notice = NoNotice | SentNotice | RetryNotice

  /** A confirmation after success, an invitation to retry after an error,
      nothing otherwise. */
  function NoticeFor(status: Status): (n: Notice)
    ensures n == SentNotice <==> status == Success
    ensures n == RetryNotice <==> status == Error
    ensures n == NoNotice <==> status == Idle || status == Loading
  {
    match status
    case Success => SentNotice
    case Error => RetryNotice
    case _ => NoNotice
  }

  /** Whatever the events, a state with a notice on screen is one where no
      submission is in flight, so the button shows its arrow and its label is
      not the sending one. */
  lemma NoticeMeansIdleButton(st: Lead, evs: seq<LeadEvent>)
    requires LoadingIffInFlight(st)
    requires NoticeFor(Run(st, evs).status) != NoNotice
    ensures !Run(st, evs).inFlight
    ensures ButtonGlyph(Run(st, evs).status) == "→"
    ensures ButtonLabel(Run(st, evs).status) != "ENVOI..."
  {
    RunKeepsLoadingIffInFlight(st, evs);
  }
}

=== FILE: page_method.dfy ===
/**
 The method page (components/book/pages/PageMethod.tsx): four steps, chosen
 on mobile by tapping a selector and on desktop through a rail with PREV /
 NEXT buttons and one node per step; and, on desktop, four horizontal panels
 whose current index is derived from the scroll position.
 */
module PageMethod {
  import opened JsNumber
  import opened JsString
  import opened ScrollMetrics

  /** One step of the method; only its number and title are modelled. */
  datatype MethodStep = MethodStep(n: string, title: string)

  const Steps: seq<MethodStep> := [
    MethodStep("01", "Analyse & cadrage"),
    MethodStep("02", "Conception"),
    MethodStep("03", "Développement"),
    MethodStep("04", "Déploiement & suivi")
  ]

  const StepCount: nat := |Steps|

  predicate InRange(active: int)
  {
    0 <= active < StepCount
  }

  /** The step numbers are the two-digit counters 01, 02, 03, 04. */
  lemma StepNumbersArePadded(i: nat)
    requires i < StepCount
    ensures Steps[i].n == Pad2(i + 1)
  {
    Pad2OneDigit(i + 1);
    var d := DigitChar(i + 1);
    if i == 0 {
      assert d == '1';
    } else if i == 1 {
      assert d == '2';
    } else if i == 2 {
      assert d == '3';
    } else {
      assert d == '4';
    }
  }

  /** PREV is disabled on the first step. */
  predicate PrevDisabled(active: int)
  {
    active == 0
  }

  /** NEXT is disabled on the last step. */
  predicate NextDisabled(active: int)
  {
    active == StepCount - 1
  }

  /** PREV: `Math.max(0, active - 1)`. */
  function Prev(active: int): (r: int)
    ensures InRange(active) ==> InRange(r)
    ensures InRange(active) ==> (r == active <==> PrevDisabled(active))
    ensures r >= 0
  {
    if active - 1 > 0 then active - 1 else 0
  }

  /** NEXT: `Math.min(steps.length - 1, active + 1)`. */
  function Next(active: int): (r: int)
    ensures InRange(active) ==> InRange(r)
    ensures InRange(active) ==> (r == active <==> NextDisabled(active))
    ensures r <= StepCount - 1
  {
    if active + 1 < StepCount - 1 then active + 1 else StepCount - 1
  }

  /** When enabled, each button moves by exactly one step, and the two undo
      each other. */
  lemma PrevNextInverse(active: int)
    requires InRange(active)
    ensures !PrevDisabled(active) ==> Prev(active) == active - 1 && Next(Prev(active)) == active
    ensures !NextDisabled(active) ==> Next(active) == active + 1 && Prev(Next(active)) == active
  {
  }

  /** The clicks the rail offers: the two buttons and one node per step. */
  datatype RailClick = PrevClick | NextClick | NodeClick(i: int)

  /** The step after a click. A disabled button does not fire, and only the
      nodes 0..3 exist. */
  function RailStep(active: int, click: RailClick): (r: int)
    ensures InRange(active) ==> InRange(r)
    ensures click.NodeClick? && InRange(click.i) ==> r == click.i
    ensures InRange(active) && click.PrevClick? ==> r == Prev(active)
    ensures InRange(active) && click.NextClick? ==> r == Next(active)
  {
    match click
    case PrevClick => if PrevDisabled(active) then active else Prev(active)
    case NextClick => if NextDisabled(active) then active else Next(active)
    case NodeClick(i) => if InRange(i) then i else active
  }

  /** Any run of rail clicks, starting from the initial step 0. */
  function RailRun(active: int, clicks: seq<RailClick>): int
    decreases |clicks|
  {
    if clicks == [] then active else RailRun(RailStep(active, clicks[0]), clicks[1..])
  }

  /** Whatever the user clicks, the active step stays a valid index into the
      steps, so `steps[active]` always exists. */
  lemma {:induction false} RailRunInRange(active: int, clicks: seq<RailClick>)
    requires InRange(active)
    ensures InRange(RailRun(active, clicks))
    decreases |clicks|
  {
    if clicks != [] {
      RailRunInRange(RailStep(active, clicks[0]), clicks[1..]);
    }
  }

  /** Which side of the rail a node is drawn on. */
  datatype Side = Top | Bottom

  /** `i % 2 === 0 ? "top" : "bottom"`. */
  function NodeSide(i: nat): Side
  {
    if i % 2 == 0 then Top else Bottom
  }

  /** Nodes alternate: neighbours are on opposite sides, the first is on top. */
  lemma NodeSidesAlternate(i: nat)
    ensures NodeSide(0) == Top
    ensures NodeSide(i) != NodeSide(i + 1)
    ensures NodeSide(i) == NodeSide(i + 2)
  {
  }

  /** Mobile: tapping selector i makes step i active. */
  function MobileSelect(active: int, i: int): (r: int)
    requires InRange(i)
    ensures InRange(r) && Steps[r] == Steps[i]
  {
    i
  }

  /** The detail shown for the active step: `steps[active]`. */
  function Detail(active: int): (s: MethodStep)
    requires InRange(active)
    ensures s.n == Pad2(active + 1)
  {
    StepNumbersArePadded(active);
    Steps[active]
  }

  /** The desktop panels: intro, rail, details, next. */
  const PanelCount: nat := 4

  /** The desktop panel index: `Math.round(scrollLeft / clientWidth)` clamped
      to [0, panels.length - 1]. The division is not guarded, so a zero width
      gives +Infinity or -Infinity (clamped to the last or the first panel),
      and a zero width at position 0 gives NaN, which the clamp keeps. With a
      positive width, positions before the middle of the first panel read
      as panel 0, positions from the middle of panel 3 on read as panel 3,
      and in between the index is the panel whose rounding interval holds
      the position. */
  function PanelIndex(m: Metrics): (r: Extended)
    ensures r.Finite? ==> 0 <= r.n < PanelCount
    ensures r.NaN? <==> m.clientWidth == 0 && m.scrollLeft == 0
    ensures m.clientWidth == 0 && m.scrollLeft > 0 ==> r == Finite(PanelCount - 1)
    ensures m.clientWidth == 0 && m.scrollLeft < 0 ==> r == Finite(0)
    ensures m.clientWidth > 0 ==> r.Finite?
    ensures m.clientWidth > 0 && 2 * m.scrollLeft < m.clientWidth ==> r == Finite(0)
    ensures m.clientWidth > 0 && 2 * m.scrollLeft >= 5 * m.clientWidth ==> r == Finite(PanelCount - 1)
    ensures m.clientWidth > 0 && m.clientWidth <= 2 * m.scrollLeft < 5 * m.clientWidth ==>
              2 * r.n * m.clientWidth - m.clientWidth <= 2 * m.scrollLeft < 2 * r.n * m.clientWidth + m.clientWidth
  {
    PanelRounding(m.scrollLeft, m.clientWidth);
    Clamp(RoundQuotient(m.scrollLeft, m.clientWidth), 0, PanelCount - 1)
  }

  /** Where the rounded quotient falls relative to the four panels. */
  lemma PanelRounding(x: int, w: nat)
    ensures w > 0 && 2 * x < w ==> RoundDiv(x, w) <= 0
    ensures w > 0 && 2 * x >= 5 * w ==> RoundDiv(x, w) >= 3
    ensures w > 0 && w <= 2 * x < 5 * w ==> 1 <= RoundDiv(x, w) <= 2
  {
    if w > 0 {
      if 2 * x < w {
        RoundDivAtMost(x, w, 0);
      } else if 2 * x >= 5 * w {
        RoundDivAtLeast(x, w, 3);
      } else {
        RoundDivAtLeast(x, w, 1);
        RoundDivAtMost(x, w, 2);
      }
    }
  }

  /** What the desktop scroll handler records. */
  datatype DesktopView = DesktopView(progress: real, panelIndex: Extended)

  const InitialDesktopView := DesktopView(0.0, Finite(0))

  /** `onScroll`: progress and clamped panel index from the scroller. */
  function OnScroll(m: Metrics): (v: DesktopView)
    ensures 0 <= m.scrollLeft <= MaxScroll(m) ==> 0.0 <= v.progress <= 1.0
    ensures v.panelIndex.Finite? ==> 0 <= v.panelIndex.n < PanelCount
    ensures v.progress == Progress(m) && v.panelIndex == PanelIndex(m)
  {
    DesktopView(Progress(m), PanelIndex(m))
  }

  /** Mounting the desktop view: the scroll handler is attached and run once
      only when the desktop media query matches; otherwise the initial view
      stays. */
  function Mount(matches: bool, m: Metrics): (v: DesktopView)
    ensures !matches ==> v == InitialDesktopView
    ensures matches ==> v == OnScroll(m)
  {
    if matches then OnScroll(m) else InitialDesktopView
  }

  /** `goTo(i)`: the scroll target of pager dot i. */
  function GoToTarget(i: int, clientWidth: nat): int
  {
    i * clientWidth
  }

  /** Scrolling to panel i's target makes the scroll handler report panel i,
      for every panel and every positive width. */
  lemma GoToLandsOnPanel(i: int, scrollWidth: nat, clientWidth: nat)
    requires 0 <= i < PanelCount && clientWidth > 0
    ensures PanelIndex(Metrics(GoToTarget(i, clientWidth), scrollWidth, clientWidth)) == Finite(i)
  {
    RoundDivOfMultiple(i, clientWidth);
  }

  /** With a zero width the pager target is 0 and the panel index is NaN. */
  lemma GoToWithZeroWidth(i: int, scrollWidth: nat)
    ensures PanelIndex(Metrics(GoToTarget(i, 0), scrollWidth, 0)).NaN?
  {
  }

  /** The counter under the pager: `PAGE ` and the two-digit panel number. */
  function PageLabel(panelIndex: nat): (r: string)
    ensures |r| >= 7 && r[..5] == "PAGE "
  {
    "PAGE " + Pad2(panelIndex + 1)
  }

  /** For the four panels the counter reads PAGE 01 to PAGE 04. */
  lemma PageLabelDigits(panelIndex: nat)
    requires panelIndex < PanelCount
    ensures |PageLabel(panelIndex)| == 7
    ensures ReadsAs(PageLabel(panelIndex)[5..], panelIndex + 1)
  {
    Pad2OneDigit(panelIndex + 1);
    PaddedDigitValue(panelIndex + 1);
    var p := ['0', DigitChar(panelIndex + 1)];
    assert PageLabel(panelIndex) == "PAGE " + p;
    assert PageLabel(panelIndex)[5..] == p;
  }
}

=== FILE: page_references.dfy ===
/**
 The references page (components/book/pages/PageReferences.tsx): three tabs,
 each showing a fixed list of reference cards numbered 01, 02, ...; clicking
 a card opens a modal with that reference, which the close button or a
 press on the backdrop dismisses.
 */
module PageReferences {
  import opened Wrappers
  import opened JsString

  /** A reference; its long description is copy text and is not modelled. */
  datatype RefItem = RefItem(id: string, name: string, tag: Option<string>)

  const Europe: seq<RefItem> := [
    RefItem("bpce", "Groupe BPCE", Some("Banque")),
    RefItem("socotec", "SOCOTEC", Some("Industrie")),
    RefItem("bdf", "Banque de France", Some("Institution")),
    RefItem("engie", "ENGIE", Some("Énergie"))
  ]

  const Afrique: seq<RefItem> := [
    RefItem("hp-gabon", "HP Services (Gabon)", Some("Transport")),
    RefItem("as-logistics", "AS-LOGISTICS (Niger)", Some("Logistique")),
    RefItem("consulaire", "Service consulaire (Gabon–Bénin)", Some("Public")),
    RefItem("municipaux", "Services municipaux (Bénin)", Some("Collectivités"))
  ]

  const Partenaires: seq<RefItem> := [
    RefItem("p1", "Transport & logistique", Some("Secteur")),
    RefItem("p2", "Institutions consulaires", Some("Institution")),
    RefItem("p3", "Collectivités & services publics", Some("Public")),
    RefItem("p4", "Ingénierie & BTP", Some("Industrie"))
  ]

  datatype Tab = EuropeTab | AfriqueTab | PartenairesTab

  /** The list a tab shows. */
  function Dataset(tab: Tab): (items: seq<RefItem>)
    ensures |items| == 4
    ensures tab == EuropeTab <==> items == Europe
    ensures tab == AfriqueTab <==> items == Afrique
    ensures tab == PartenairesTab <==> items == Partenaires
  {
    assert Europe[0] != Afrique[0] && Europe[0] != Partenaires[0] && Afrique[0] != Partenaires[0];
    match tab
    case EuropeTab => Europe
    case AfriqueTab => Afrique
    case PartenairesTab => Partenaires
  }

  /** Every reference the page can show. */
  const AllItems: seq<RefItem> := Europe + Afrique + Partenaires

  /** No two entries of a list share an id. */
  predicate DistinctIds(items: seq<RefItem>)
  {
    forall i, j :: 0 <= i < j < |items| ==> items[i].id != items[j].id
  }

  /** The ids are unique across all three lists, so a card's layout id
      `card-<id>` names exactly one reference. */
  lemma IdsAreUnique()
    ensures DistinctIds(AllItems)
  {
  }

  /** Each list is a slice of all the references, in order. */
  lemma DatasetInAllItems(tab: Tab, i: nat)
    requires i < 4
    ensures Dataset(tab)[i] in AllItems
  {
    match tab
    case EuropeTab => assert AllItems[i] == Europe[i];
    case AfriqueTab => assert AllItems[4 + i] == Afrique[i];
    case PartenairesTab => assert AllItems[8 + i] == Partenaires[i];
  }

  /** Within the list a tab shows, an id picks out one card. */
  lemma IdPicksOneCard(tab: Tab, i: nat, j: nat)
    requires i < 4 && j < 4 && Dataset(tab)[i].id == Dataset(tab)[j].id
    ensures i == j
  {
    IdsAreUnique();
    var off := match tab case EuropeTab => 0 case AfriqueTab => 4 case PartenairesTab => 8;
    assert AllItems[off + i] == Dataset(tab)[i];
    assert AllItems[off + j] == Dataset(tab)[j];
  }

  /** The selected tab and the reference shown in the modal, if any. */
  datatype RefState = RefState(tab: Tab, active: Option<RefItem>)

  /** First render: the Europe tab, no modal. */
  const Initial := RefState(EuropeTab, None)

  /** What the user can do. A press on the modal reports whether it landed
      on the panel (where it is stopped) or on the backdrop around it. */
  datatype RefEvent =
    | SelectTab(tab: Tab)
    | OpenCard(idx: int)
    | ModalPress(onPanel: bool)
    | CloseButton

  function Step(st: RefState, ev: RefEvent): (r: RefState)
    ensures ev.SelectTab? ==> r == RefState(ev.tab, st.active)
    ensures ev.OpenCard? && 0 <= ev.idx < 4 ==> r == RefState(st.tab, Some(Dataset(st.tab)[ev.idx]))
    ensures ev.CloseButton? ==> r == RefState(st.tab, None)
    ensures ev.ModalPress? ==> r.tab == st.tab && (r.active == None <==> !ev.onPanel || st.active == None)
    ensures ev.ModalPress? && ev.onPanel ==> r == st
  {
    match ev
    case SelectTab(t) => st.(tab := t)
    case OpenCard(idx) =>
      // Only the cards 0..3 of the current list exist.
      if 0 <= idx < |Dataset(st.tab)| then st.(active := Some(Dataset(st.tab)[idx])) else st
    case ModalPress(onPanel) => if onPanel then st else st.(active := None)
    case CloseButton => st.(active := None)
  }

  function Run(st: RefState, evs: seq<RefEvent>): RefState
    decreases |evs|
  {
    if evs == [] then st else Run(Step(st, evs[0]), evs[1..])
  }

  /** The modal only ever shows one of the page's references. */
  predicate ActiveIsReference(st: RefState)
  {
    st.active.Some? ==> st.active.value in AllItems
  }

  lemma {:induction false} RunShowsOnlyReferences(st: RefState, evs: seq<RefEvent>)
    requires ActiveIsReference(st)
    ensures ActiveIsReference(Run(st, evs))
    decreases |evs|
  {
    if evs != [] {
      var ev := evs[0];
      if ev.OpenCard? && 0 <= ev.idx < 4 {
        DatasetInAllItems(st.tab, ev.idx);
      }
      RunShowsOnlyReferences(Step(st, ev), evs[1..]);
    }
  }

  /** The page starts with no modal, so whatever the user does the modal
      shows one of the page's references. */
  lemma ReachableShowsOnlyReferences(evs: seq<RefEvent>)
    ensures ActiveIsReference(Run(Initial, evs))
  {
    RunShowsOnlyReferences(Initial, evs);
  }

  /** Opening a card and closing the modal, either way, returns to the state
      before the card was opened, when no modal was open. */
  lemma OpenThenClose(st: RefState, idx: int)
    requires st.active == None && 0 <= idx < 4
    ensures Step(Step(st, OpenCard(idx)), CloseButton) == st
    ensures Step(Step(st, OpenCard(idx)), ModalPress(false)) == st
    ensures Step(Step(st, OpenCard(idx)), ModalPress(true)).active == Some(Dataset(st.tab)[idx])
  {
  }

  /** Switching tabs with the modal open keeps the reference shown, even
      when it is not in the newly selected list: BPCE stays open over the
      Afrique tab. */
  lemma TabSwitchKeepsModal()
    ensures Step(RefState(EuropeTab, Some(Europe[0])), SelectTab(AfriqueTab)).active == Some(Europe[0])
    ensures Europe[0] !in Dataset(AfriqueTab)
  {
    assert Afrique[0].id[0] == 'h';
    assert Afrique[1].id[0] == 'a';
    assert Afrique[2].id[0] == 'c';
    assert Afrique[3].id[0] == 'm';
  }

  /** The big number on card idx: `String(idx + 1).padStart(2, "0")`. */
  function CardLabel(idx: nat): (r: string)
    ensures |r| >= 2
    ensures forall k :: 0 <= k < |r| ==> IsDigit(r[k])
    ensures DigitsValue(r) == idx + 1
  {
    Pad2Meaning(idx + 1);
    Pad2(idx + 1)
  }

  /** The four cards of a list are labelled 01 to 04. */
  lemma CardLabelsOneLeadingZero(idx: nat)
    requires idx < 4
    ensures CardLabel(idx) == ['0', DigitChar(idx + 1)]
  {
    Pad2OneDigit(idx + 1);
  }
}

=== FILE: page_why.dfy ===
/**
 The "why" page (components/book/pages/PageWhy.tsx). On desktop it is a
 horizontal scroller of four pages: a vertical wheel turn scrolls it
 sideways, and the scroll handler records the reading progress and the
 current page index, this time without clamping the index. When the
 desktop media query stops matching, the listeners are removed and the
 progress and index reset. Unmounting removes the listeners and stops
 listening to the media query. Inside the third page a timeline can be dragged
 within bounds computed from its overflow.
 */
module PageWhy {
  import opened JsNumber
  import opened JsString
  import opened ScrollMetrics
  import PageMethod

  /** Hero, points, timeline, call to action. */
  const PageCount: nat := 4

  /** `onWheel`: a vertically dominant turn adds deltaY to scrollLeft; any
      other turn leaves the scroller alone. */
  function WheelScroll(scrollLeft: int, deltaX: int, deltaY: int): (r: int)
    ensures r != scrollLeft <==> VerticalDominant(deltaX, deltaY)
    ensures VerticalDominant(deltaX, deltaY) ==> r - scrollLeft == deltaY
  {
    if VerticalDominant(deltaX, deltaY) then scrollLeft + deltaY else scrollLeft
  }

  /** `el.clientWidth || 1`: the width used as divisor is never zero. */
  function DivisorWidth(clientWidth: nat): (w: nat)
    ensures w > 0
    ensures clientWidth > 0 ==> w == clientWidth
  {
    if clientWidth == 0 then 1 else clientWidth
  }

  /** `Math.round(el.scrollLeft / w)`: the nearest multiple of the width, with no
      clamp to the page count. */
  function IndexAt(m: Metrics): (i: int)
    ensures var w := DivisorWidth(m.clientWidth);
            2 * i * w - w <= 2 * m.scrollLeft < 2 * i * w + w
  {
    RoundDiv(m.scrollLeft, DivisorWidth(m.clientWidth))
  }

  /** The index is not clamped: a position past the last page gives an
      index past the last page, and a negative position a negative index. */
  lemma IndexNotClamped()
    ensures IndexAt(Metrics(400, 400, 100)) == 4 >= PageCount
    ensures IndexAt(Metrics(-100, 400, 100)) == -1
  {
    RoundDivOfMultiple(4, 100);
    RoundDivOfMultiple(-1, 100);
  }

  /** As long as the position stays inside the scroll range of four
      full-width pages, the unclamped index is a valid page and equals the
      clamped index the method page computes. */
  lemma IndexInRangeWithinScroll(m: Metrics)
    requires m.clientWidth > 0 && m.scrollWidth == PageCount * m.clientWidth
    requires 0 <= m.scrollLeft <= MaxScroll(m)
    ensures 0 <= IndexAt(m) < PageCount
    ensures PageMethod.PanelIndex(m) == Finite(IndexAt(m))
  {
    var w := m.clientWidth;
    RoundDivMonotone(0, m.scrollLeft, w);
    RoundDivMonotone(m.scrollLeft, 3 * w, w);
    RoundDivOfMultiple(0, w);
    RoundDivOfMultiple(3, w);
  }

  /** `goTo(i)` scrolls to `i * clientWidth`, the same target as the method
      page's pager; with a positive width the scroll handler then reports
      page i, for any i, in range or not. */
  lemma GoToReportsPage(i: int, m: Metrics)
    requires m.clientWidth > 0
    ensures IndexAt(m.(scrollLeft := PageMethod.GoToTarget(i, m.clientWidth))) == i
  {
    RoundDivOfMultiple(i, m.clientWidth);
  }

  /** The page's recorded state: the scroller, whether the effect is still
      mounted (its media-query listener attached), whether the wheel and
      scroll listeners are attached, the progress and the index. */
  datatype WhyState = WhyState(m: Metrics, mounted: bool, listening: bool, progress: real, index: int)

  /** The effect as it starts, before its first `attach()`. */
  function Initial(m: Metrics): WhyState
  {
    WhyState(m, true, false, 0.0, 0)
  }

  /** `onScroll`: record progress and index from the scroller. */
  function OnScroll(st: WhyState): (r: WhyState)
    ensures r.m == st.m && r.mounted == st.mounted && r.listening == st.listening
    ensures r.progress == Progress(st.m) && r.index == IndexAt(st.m)
  {
    st.(progress := Progress(st.m), index := IndexAt(st.m))
  }

  /** `attach()`: detach whatever was attached; then, off desktop, reset
      progress and index and attach nothing; on desktop, attach both
      listeners and run the scroll handler once. */
  function Attach(st: WhyState, matches: bool): (r: WhyState)
    ensures r.m == st.m && r.mounted == st.mounted
    ensures r.listening == matches
    ensures !matches ==> r.progress == 0.0 && r.index == 0
    ensures matches ==> r == OnScroll(st.(listening := true))
  {
    if !matches then st.(listening := false, progress := 0.0, index := 0)
    else OnScroll(st.(listening := true))
  }

  /** What can happen to the page: input, a media-query change, unmounting. */
  datatype WhyEvent = Wheel(deltaX: int, deltaY: int) | Scrolled | MediaChange(matches: bool) | Unmount

  /** One event: wheel and scroll events reach the page only through its
      listeners; a media-query change re-runs `attach()` only while the
      effect is mounted; unmounting runs the cleanup. */
  function Step(st: WhyState, ev: WhyEvent): WhyState
  {
    match ev
    case Wheel(dx, dy) =>
      if st.listening then st.(m := st.m.(scrollLeft := WheelScroll(st.m.scrollLeft, dx, dy))) else st
    case Scrolled => if st.listening then OnScroll(st) else st
    case MediaChange(matches) => if st.mounted then Attach(st, matches) else st
    case Unmount => Cleanup(st)
  }

  function Run(st: WhyState, evs: seq<WhyEvent>): WhyState
    decreases |evs|
  {
    if evs == [] then st else Run(Step(st, evs[0]), evs[1..])
  }

  /** While mounted off desktop, nothing is attached and the progress and
      index are reset. */
  predicate ResetWhenDetached(st: WhyState)
  {
    st.mounted && !st.listening ==> st.progress == 0.0 && st.index == 0
  }

  /** From any state where it holds (the initial state included), however
      events interleave, whenever the listeners are detached the progress and
      the index read 0. */
  lemma {:induction false} DetachedStaysReset(st: WhyState, evs: seq<WhyEvent>)
    requires ResetWhenDetached(st)
    ensures ResetWhenDetached(Run(st, evs))
    decreases |evs|
  {
    if evs != [] {
      DetachedStaysReset(Step(st, evs[0]), evs[1..]);
    }
  }

  /** The effect starts reset, so in every state it reaches the progress
      and the index read 0 while mounted and detached. */
  lemma ReachableResetWhenDetached(m: Metrics, evs: seq<WhyEvent>)
    ensures ResetWhenDetached(Run(Initial(m), evs))
  {
    DetachedStaysReset(Initial(m), evs);
  }

  /** Without listeners, wheel and scroll events change nothing. */
  lemma DetachedIgnoresInput(st: WhyState, ev: WhyEvent)
    requires !st.listening && (ev.Wheel? || ev.Scrolled?)
    ensures Step(st, ev) == st
  {
  }

  /** `useEffect` cleanup: the wheel and scroll listeners and the media-query
      listener are removed; the scroller, progress and index are left as
      they were. */
  function Cleanup(st: WhyState): (r: WhyState)
    ensures !r.listening && !r.mounted
    ensures r.m == st.m && r.progress == st.progress && r.index == st.index
  {
    st.(listening := false, mounted := false)
  }

  /** After the cleanup no event has any effect: input finds no listener,
      a media-query change no longer re-attaches, and a second cleanup
      changes nothing. */
  lemma {:induction false} NothingAfterCleanup(st: WhyState, evs: seq<WhyEvent>)
    ensures Run(Cleanup(st), evs) == Cleanup(st)
    decreases |evs|
  {
    if evs != [] {
      assert Step(Cleanup(st), evs[0]) == Cleanup(st);
      NothingAfterCleanup(st, evs[1..]);
    }
  }

  /** The drag constraint of the timeline track. */
  datatype Bounds = Bounds(left: int, right: int)

  /** `{ left: -max(0, scrollWidth - clientWidth), right: 0 }`. */
  function DragBounds(scrollWidth: nat, clientWidth: nat): (b: Bounds)
    ensures b.left <= 0 == b.right
    ensures b.left == 0 <==> scrollWidth <= clientWidth
    ensures scrollWidth > clientWidth ==> -b.left == scrollWidth - clientWidth
  {
    var maxDrag := if scrollWidth - clientWidth > 0 then scrollWidth - clientWidth else 0;
    Bounds(-maxDrag, 0)
  }

  /** Dragging the track to any offset x within the bounds keeps the visible
      window [-x, -x + clientWidth] inside the content (or inside the
      viewport, when the content is narrower). */
  lemma DragKeepsContentInView(scrollWidth: nat, clientWidth: nat, x: int)
    requires DragBounds(scrollWidth, clientWidth).left <= x <= DragBounds(scrollWidth, clientWidth).right
    ensures 0 <= -x
    ensures -x + clientWidth <= if scrollWidth > clientWidth then scrollWidth else clientWidth
  {
  }

  /** The corner label of page i: `01 / 04` style. */
  function SectionLabel(i: nat, count: nat): (r: string)
    ensures |r| == |Pad2(i + 1)| + 3 + |Pad2(count)| >= 7
    ensures r[|Pad2(i + 1)|..|Pad2(i + 1)| + 3] == " / "
    ensures ReadsAs(r[..|Pad2(i + 1)|], i + 1)
    ensures ReadsAs(r[|Pad2(i + 1)| + 3..], count)
  {
    Pad2ReadsAs(i + 1);
    Pad2ReadsAs(count);
    SlashParts(Pad2(i + 1), Pad2(count));
    Pad2(i + 1) + " / " + Pad2(count)
  }

  /** The two ends of `p / q` are p and q. */
  lemma SlashParts(p: string, q: string)
    ensures (p + " / " + q)[..|p|] == p
    ensures (p + " / " + q)[|p|..|p| + 3] == " / "
    ensures (p + " / " + q)[|p| + 3..] == q
  {
  }

  /** For the four pages the label is seven characters and reads back the
      page number and the page count. */
  lemma SectionLabelReadsBack(i: nat)
    requires i < PageCount
    ensures |SectionLabel(i, PageCount)| == 7
    ensures ReadsAs(SectionLabel(i, PageCount)[..2], i + 1)
    ensures ReadsAs(SectionLabel(i, PageCount)[5..], PageCount)
  {
    Pad2OneDigit(i + 1);
    Pad2OneDigit(PageCount);
    PaddedDigitValue(i + 1);
    PaddedDigitValue(PageCount);
    var p, q := ['0', DigitChar(i + 1)], ['0', DigitChar(PageCount)];
    var r := SectionLabel(i, PageCount);
    assert r == p + " / " + q;
    assert r[..2] == p;
    assert r[5..] == q;
  }
}

=== FILE: scroll_metrics.dfy ===
/**
 Geometry of a horizontal scroller, shared by the home page, the method page
 and the "why" page: the scroll position, the scrollable width and the
 visible width, all in whole pixels, and the two computations every scroll
 handler makes from them, the reading progress and the wheel remapping.
 */
module ScrollMetrics {
  import JsNumber

  /** `el.scrollLeft`, `el.scrollWidth` and `el.clientWidth`. */
  datatype Metrics = Metrics(scrollLeft: int, scrollWidth: nat, clientWidth: nat)

  /** How far the content overflows the viewport: `scrollWidth - clientWidth`. */
  function MaxScroll(m: Metrics): int
  {
    m.scrollWidth - m.clientWidth
  }

  /** `max <= 0 ? 0 : el.scrollLeft / max`: the fraction of the overflow
      already scrolled past. */
  function Progress(m: Metrics): (p: real)
    ensures MaxScroll(m) <= 0 ==> p == 0.0
    ensures MaxScroll(m) > 0 ==> p * MaxScroll(m) as real == m.scrollLeft as real
    ensures 0 <= m.scrollLeft <= MaxScroll(m) ==> 0.0 <= p <= 1.0
  {
    var max := MaxScroll(m);
    if max <= 0 then 0.0
    else
      var p := m.scrollLeft as real / max as real;
      assert p * max as real == m.scrollLeft as real;
      if 0 <= m.scrollLeft <= max then
        FractionInUnit(m.scrollLeft as real, max as real, p);
        p
      else p
  }

  lemma FractionInUnit(x: real, max: real, p: real)
    requires max > 0.0 && 0.0 <= x <= max && p * max == x
    ensures 0.0 <= p <= 1.0
  {
  }

  /** Progress grows with the scroll position. */
  lemma ProgressMonotone(m: Metrics, k: int)
    requires m.scrollLeft <= k
    ensures Progress(m) <= Progress(m.(scrollLeft := k))
  {
    var max := MaxScroll(m);
    if max > 0 {
      assert MaxScroll(m.(scrollLeft := k)) == max;
      var w, x, y := max as real, m.scrollLeft as real, k as real;
      assert Progress(m) == x / w;
      assert Progress(m.(scrollLeft := k)) == y / w;
      JsNumber.RealDivMonotone(x, y, w);
    }
  }

  function Abs(x: int): nat
  {
    if x < 0 then -x else x
  }

  /** `Math.abs(e.deltaY) > Math.abs(e.deltaX)`: the wheel turned mostly vertically. */
  predicate VerticalDominant(deltaX: int, deltaY: int)
  {
    Abs(deltaY) > Abs(deltaX)
  }
}

=== FILE: validators.dfy ===
/**
 The two email checks of the lead form (lib/validators.ts).

 `isValidEmail` tests the regular expression `^[^\s@]+@[^\s@]+\.[^\s@]+$`.
 Here it is computed by splitting at `@`, and the lemma
 `IsValidEmailMatchesPattern` shows that this agrees with the positional
 reading of the pattern, `MatchesEmailPattern`.

 `isBusinessEmail` takes the piece after the first `@` (up to a second `@`,
 if any), lower-cases it and rejects six free-mail domains.
 */
module Validators {
  import opened JsString
  import opened Wrappers

  /** One character of the class `[^\s@]`. */
  predicate IsPlain(c: char)
  {
    !IsWhitespace(c) && c != '@'
  }

  predicate AllPlain(s: string)
  {
    forall k :: 0 <= k < |s| ==> IsPlain(s[k])
  }

  /** The regular expression read position by position: s is
      L + "@" + A + "." + B with L = s[..at], A = s[at+1..dot], B = s[dot+1..]
      all non-empty and made of `[^\s@]` characters. */
  ghost predicate MatchesEmailPattern(s: string)
  {
    exists at, dot ::
      && 0 < at && at + 1 < dot && dot + 1 < |s|
      && s[at] == '@' && s[dot] == '.'
      && AllPlain(s[..at]) && AllPlain(s[at + 1..dot]) && AllPlain(s[dot + 1..])
  }

  /** A domain part of the pattern: `[^\s@]+\.[^\s@]+`, i.e. plain characters
      with a dot somewhere strictly inside. */
  predicate DomainShape(d: string)
  {
    AllPlain(d) && exists k :: 0 < k < |d| - 1 && d[k] == '.'
  }

  /** `isValidEmail(email)`. */
  function IsValidEmail(email: string): bool
  {
    var parts := Split(email, '@');
    |parts| == 2 && parts[0] != [] && AllPlain(parts[0]) && DomainShape(parts[1])
  }

  /** A string without the separator splits into itself. */
  lemma SplitWithoutSeparator(t: string, c: char)
    requires c !in t
    ensures Split(t, c) == [t]
  {
    JoinSplit(t, c);
  }

  /** With exactly one `@`, the check reads the text on either side of it. */
  lemma IsValidEmailAroundAt(l: string, d: string)
    requires '@' !in l && '@' !in d
    ensures IsValidEmail(l + "@" + d) <==> l != [] && AllPlain(l) && DomainShape(d)
  {
    assert l + "@" + d == l + ['@'] + d;
    SplitAtSeparator(l, d, '@');
    SplitWithoutSeparator(d, '@');
  }

  /** A string accepted by the check is l + "@" + d with no `@` in l or d. */
  lemma ValidEmailHasOneAt(s: string)
    requires IsValidEmail(s)
    ensures exists l, d :: s == l + "@" + d && '@' !in l && '@' !in d
  {
    var parts := Split(s, '@');
    JoinSplit(s, '@');
    var l, d := parts[0], parts[1];
    assert Join(parts[1..], '@') == d;
    assert s == l + "@" + d;
  }

  /** The check agrees with the regular expression, in both directions. */
  lemma IsValidEmailMatchesPattern(s: string)
    ensures IsValidEmail(s) <==> MatchesEmailPattern(s)
  {
    if IsValidEmail(s) {
      ValidToPattern(s);
    }
    if MatchesEmailPattern(s) {
      PatternToValid(s);
    }
  }

  lemma ValidToPattern(s: string)
    requires IsValidEmail(s)
    ensures MatchesEmailPattern(s)
  {
    ValidEmailHasOneAt(s);
    var l, d :| s == l + "@" + d && '@' !in l && '@' !in d;
    IsValidEmailAroundAt(l, d);
    var k :| 0 < k < |d| - 1 && d[k] == '.';
    var at, dot := |l|, |l| + 1 + k;
    assert s[..at] == l;
    assert s[at + 1..dot] == d[..k];
    assert s[dot + 1..] == d[k + 1..];
    assert s[at] == '@' && s[dot] == '.';
  }

  lemma PatternToValid(s: string)
    requires MatchesEmailPattern(s)
    ensures IsValidEmail(s)
  {
    var at, dot :| && 0 < at && at + 1 < dot && dot + 1 < |s|
                   && s[at] == '@' && s[dot] == '.'
                   && AllPlain(s[..at]) && AllPlain(s[at + 1..dot]) && AllPlain(s[dot + 1..]);
    PatternAtToValid(s, at, dot);
  }

  /** A match with its `@` at `at` and its dot at `dot` is accepted. */
  lemma PatternAtToValid(s: string, at: int, dot: int)
    requires 0 < at && at + 1 < dot && dot + 1 < |s|
    requires s[at] == '@' && s[dot] == '.'
    requires AllPlain(s[..at]) && AllPlain(s[at + 1..dot]) && AllPlain(s[dot + 1..])
    ensures IsValidEmail(s)
  {
    var l, d := s[..at], s[at + 1..];
    assert s == l + "@" + d;
    PatternDomain(s, at, dot);
    PlainHasNoAt(l);
    IsValidEmailAroundAt(l, d);
  }

  /** In a match, the text after the `@` is a domain without `@`. */
  lemma PatternDomain(s: string, at: int, dot: int)
    requires 0 < at && at + 1 < dot && dot + 1 < |s|
    requires s[at] == '@' && s[dot] == '.'
    requires AllPlain(s[..at]) && AllPlain(s[at + 1..dot]) && AllPlain(s[dot + 1..])
    ensures DomainShape(s[at + 1..]) && '@' !in s[at + 1..]
  {
    var d := s[at + 1..];
    forall k | 0 <= k < |d|
      ensures IsPlain(d[k])
    {
      PatternCharacters(s, at, dot, at + 1 + k);
    }
    PlainHasNoAt(d);
    var k := dot - at - 1;
    assert 0 < k < |d| - 1 && d[k] == '.';
  }

  lemma PlainHasNoAt(s: string)
    requires AllPlain(s)
    ensures '@' !in s
  {
  }

  /** Every character of a valid address is plain except its one `@` and
      the chosen dot. */
  lemma PatternCharacters(s: string, at: int, dot: int, k: int)
    requires 0 < at && at + 1 < dot && dot + 1 < |s|
    requires s[at] == '@' && s[dot] == '.'
    requires AllPlain(s[..at]) && AllPlain(s[at + 1..dot]) && AllPlain(s[dot + 1..])
    requires 0 <= k < |s|
    ensures !IsWhitespace(s[k])
    ensures s[k] == '@' <==> k == at
  {
    if k < at {
      assert s[k] == s[..at][k];
    } else if at < k < dot {
      assert s[k] == s[at + 1..dot][k - at - 1];
    } else if k > dot {
      assert s[k] == s[dot + 1..][k - dot - 1];
    }
  }

  /** A string with a whitespace character anywhere is rejected. */
  lemma WhitespaceRejected(s: string, k: int)
    requires 0 <= k < |s| && IsWhitespace(s[k])
    ensures !IsValidEmail(s)
  {
    IsValidEmailMatchesPattern(s);
    if MatchesEmailPattern(s) {
      var at, dot :| && 0 < at && at + 1 < dot && dot + 1 < |s|
                     && s[at] == '@' && s[dot] == '.'
                     && AllPlain(s[..at]) && AllPlain(s[at + 1..dot]) && AllPlain(s[dot + 1..]);
      PatternCharacters(s, at, dot, k);
    }
  }

  /** A string without `@` is rejected. */
  lemma NoAtRejected(s: string)
    requires '@' !in s
    ensures !IsValidEmail(s)
  {
  }

  /** A string with two or more `@` is rejected. */
  lemma TwoAtsRejected(s: string, i: int, j: int)
    requires 0 <= i < j < |s| && s[i] == '@' && s[j] == '@'
    ensures !IsValidEmail(s)
  {
    IsValidEmailMatchesPattern(s);
    if MatchesEmailPattern(s) {
      var at, dot :| && 0 < at && at + 1 < dot && dot + 1 < |s|
                     && s[at] == '@' && s[dot] == '.'
                     && AllPlain(s[..at]) && AllPlain(s[at + 1..dot]) && AllPlain(s[dot + 1..]);
      PatternCharacters(s, at, dot, i);
      PatternCharacters(s, at, dot, j);
    }
  }

  /** After the first `@`, a part with no dot strictly inside it (no dot at
      all, or dots only at its first or last position) is rejected. */
  lemma DomainWithoutInnerDotRejected(l: string, d: string)
    requires '@' !in l
    requires forall k :: 0 < k < |d| - 1 ==> d[k] != '.'
    ensures !IsValidEmail(l + "@" + d)
  {
    if '@' in d {
      var j :| 0 <= j < |d| && d[j] == '@';
      var s := l + "@" + d;
      assert s[|l|] == '@' && s[|l| + 1 + j] == '@';
      TwoAtsRejected(s, |l|, |l| + 1 + j);
    } else {
      IsValidEmailAroundAt(l, d);
    }
  }

  /** An ordinary business address passes. */
  lemma ExampleAccepted()
    ensures IsValidEmail("jane@acme.io")
  {
    var l, d := "jane", "acme.io";
    assert "jane@acme.io" == l + "@" + d;
    assert AllPlain(l);
    assert AllPlain(d) && d[4] == '.';
    IsValidEmailAroundAt(l, d);
  }

  /** The free-mail providers the business check rejects. */
  const FreeDomains: seq<string> :=
    ["gmail.com", "yahoo.com", "hotmail.com", "outlook.com", "live.com", "icloud.com"]

  /** `email.split("@")[1]`: the piece after the first `@` and before a
      second one, or `undefined` when there is no `@`. */
  function DomainSegment(email: string): (r: Option<string>)
    ensures r.None? <==> '@' !in email
    ensures r.Some? ==> '@' !in r.value
  {
    var parts := Split(email, '@');
    if |parts| >= 2 then Some(parts[1]) else None
  }

  /** `isBusinessEmail(email)`: the lower-cased domain segment must be
      present, non-empty and not a free-mail domain. */
  function IsBusinessEmail(email: string): bool
  {
    match DomainSegment(email)
    case None => false
    case Some(d) =>
      var domain := Lower(d);
      if domain == [] then false else domain !in FreeDomains
  }

  /** The segment read by the business check is exactly the text between the
      first `@` and the next `@` (or the end). */
  lemma DomainSegmentBetweenAts(l: string, d: string, rest: string)
    requires '@' !in l && '@' !in d
    requires rest == [] || rest[0] == '@'
    ensures DomainSegment(l + "@" + d + rest) == Some(d)
  {
    assert l + "@" + d + rest == l + ['@'] + (d + rest);
    SplitAtSeparator(l, d + rest, '@');
    SplitPrefix(d, rest, '@');
    if rest == [] {
      assert Split(rest, '@') == [[]];
    } else {
      assert rest == [] + ['@'] + rest[1..];
      SplitAtSeparator([], rest[1..], '@');
    }
    assert d + [] == d;
  }

  /** The business check depends only on the segment between the first and
      second `@`: false when it is empty, otherwise false exactly when its
      lower-cased form is one of the free domains. */
  lemma BusinessEmailBySegment(l: string, d: string, rest: string)
    requires '@' !in l && '@' !in d
    requires rest == [] || rest[0] == '@'
    ensures IsBusinessEmail(l + "@" + d + rest) <==> d != [] && Lower(d) !in FreeDomains
  {
    DomainSegmentBetweenAts(l, d, rest);
  }

  /** Without any `@` the address is not a business address. */
  lemma BusinessEmailNeedsAt(email: string)
    requires '@' !in email
    ensures !IsBusinessEmail(email)
  {
  }

  /** The domain comparison ignores ASCII case. */
  lemma BusinessEmailIgnoresCase(l: string, d1: string, d2: string)
    requires '@' !in l && '@' !in d1 && '@' !in d2
    requires Lower(d1) == Lower(d2)
    ensures IsBusinessEmail(l + "@" + d1) == IsBusinessEmail(l + "@" + d2)
  {
    BusinessEmailBySegment(l, d1, []);
    BusinessEmailBySegment(l, d2, []);
    assert l + "@" + d1 + [] == l + "@" + d1;
    assert l + "@" + d2 + [] == l + "@" + d2;
  }

  /** Upper-case and lower-case free-mail addresses are both rejected. */
  lemma FreeMailRejectedInAnyCase()
    ensures !IsBusinessEmail("x@GMAIL.COM")
    ensures !IsBusinessEmail("x@gmail.com")
  {
    LowerGmail();
    assert FreeDomains[0] == "gmail.com";
    assert "x@GMAIL.COM" == "x" + "@" + "GMAIL.COM" + [];
    BusinessEmailBySegment("x", "GMAIL.COM", []);
    assert "x@gmail.com" == "x" + "@" + "gmail.com" + [];
    BusinessEmailBySegment("x", "gmail.com", []);
  }

  lemma LowerGmail()
    ensures Lower("GMAIL.COM") == "gmail.com"
    ensures Lower("gmail.com") == "gmail.com"
  {
    var u, g := Lower("GMAIL.COM"), Lower("gmail.com");
    assert u[0] == 'g' && u[1] == 'm' && u[2] == 'a' && u[3] == 'i' && u[4] == 'l';
    assert u[5] == '.' && u[6] == 'c' && u[7] == 'o' && u[8] == 'm';
    assert g[0] == 'g' && g[1] == 'm' && g[2] == 'a' && g[3] == 'i' && g[4] == 'l';
    assert g[5] == '.' && g[6] == 'c' && g[7] == 'o' && g[8] == 'm';
  }

  /** The business check does not itself demand a well-formed address:
      "x@acme" passes it and fails `isValidEmail`. */
  lemma BusinessWithoutValid()
    ensures IsBusinessEmail("x@acme") && !IsValidEmail("x@acme")
  {
    assert "x@acme" == "x" + "@" + "acme" + [];
    assert Lower("acme") == "acme";
    BusinessEmailBySegment("x", "acme", []);
    assert "x@acme" == "x" + "@" + "acme";
    DomainWithoutInnerDotRejected("x", "acme");
  }
}

=== FILE: wrappers.dfy ===
/** An optional value: a JavaScript value that may be `undefined` or `null`. */
module Wrappers {

  datatype Option<+T> = None | Some(value: T)
}
